=== FILE: README.md ===
# whisper-api-inference subtitles, modelled in Dafny

This project models the subtitle core of a small FastAPI service. The
service transcribes audio with Whisper, writes WebVTT subtitles and
translates them with DeepL.

The model covers:

- **Segmentation.** `SubtitlesWriter.iterate_result` turns the transcript's
  segments and their timed words into cues. Each word either continues the
  current line, starts a new line behind a `"\n"`, or closes the cue. The
  rules are a width limit, a line-count limit, a 3-second pause rule and
  segment preservation.
- **Cue triples.** Each cue becomes a triple (start, end, text). In
  highlight mode each word of a cue gets its own triple, with that word
  underlined, and a plain filler covers any gap between formatted times.
  When the first segment has no word timings, each segment becomes one
  triple instead.
- **Serialization.** `WriteVTT.write_result` writes a WebVTT file: the
  `WEBVTT` header (section 4.1 of the W3C WebVTT specification) and one
  `start --> end align:middle` block per triple.
- **Transcript helpers.** `Transcript` concatenates the transcript text,
  picks the default options, names and addresses translated files, and
  folds the per-language translation outcomes into two maps.
- **Request checks.** The handlers check upload extensions
  (`allowed_extension`) and the `.vtt` extension, and derive the stored
  file name, the subtitles file name and the returned URL.

Modules, one per file:

| file | module | contents |
|---|---|---|
| wrappers.dfy | `Wrappers` | the `Option` value shared by all modules: an absent argument, a missing separator, a call that raises |
| strings.dfy | `Strings` | `strip`, `lower`, `capitalize`, `rsplit` `replace("-->", "->")` and `join` as used by the source |
| timing.dfy | `Timing` | words, segments, options, cue triples |
| segmentation.dfy | `Segmentation` | the word loop as a fold over explicit state, and the partition property |
| lines.dfy | `CueLines` | visual lines of a cue, and the width and line-count bounds |
| breaks.dfy | `CueBreaks` | where cues must start: segment boundaries and long pauses |
| render.dfy | `Render` | cue triples in plain, highlight and fallback mode |
| vtt.dfy | `Vtt` | the WebVTT text `write_result` produces |
| transcript.dfy | `Transcript` | transcript text, default options, file names, URLs and the aggregation fold |
| requests.dfy | `Requests` | the extension checks and name derivations of the web handlers |

Modelling choices:

- **Times.** Times are integer milliseconds, so the pause test `> 3.0`
  is `> 3000`.
- **Timestamp formatting.** `format_timestamp` comes from a library
  outside the model. It is a parameter `fmt: int -> string`.
- **Options.** Options are a record of `Option` values.
- **Missing segments.** The `IndexError` raised on an empty segment list
  (subtitle_utils.py:84) is the `None` result of `IterateResult`, and the
  `raised` flag of `WriteResult`. In the second case the header has already
  been written.
- **Translation outcomes.** A translation job's outcome is given as data,
  in completion order: `Ok(lang, url, path)` or `Err(lang)`.
- **Long pause.** The pause rule compares a word's start with the
  *previous word's start* (`last = timing.start`, subtitle_utils.py:80),
  not with its end. The model follows the code.

## Model

| member | source | states |
|---|---|---|
| Strings.StripIsTrim | subtitle_utils.py:63 | `strip()` returns the middle of the word between an all-whitespace prefix and suffix |
| Strings.Strip | subtitle_utils.py:63 | a stripped word is no longer than the word and has no whitespace at either end |
| Strings.StripIdempotent | subtitle_utils.py:63-78 | stripping an already stripped word changes nothing, so `line_len` after a cut or fill is the word's length |
| Strings.StripAfterLineBreak | subtitle_utils.py:77-78 | after a line break, `line_len` is the length of the stripped word without the `"\n"` |
| Strings.Lower | app_utils.py:11 | `lower()` keeps the length and lower-cases each letter in place |
| Strings.Capitalize | transcript.py:108 | `capitalize()` upper-cases the first character and lower-cases all the others |
| Strings.CapitalizeCaseInsensitive | transcript.py:108 | two codes reach the translator as the same code exactly when they agree ignoring case |
| Strings.AfterLast | app_utils.py:11 | `rsplit(c, 1)[-1]` holds no `c`; it is the whole string when there is no `c`, and otherwise the string is the head, `c`, then this tail |
| Strings.SplitLastOf | transcript.py:132 | splitting `p + c + q`, where `q` has no `c`, gives back exactly `p` and `q` |
| Strings.ReplaceArrow | subtitle_utils.py:113 | `replace("-->", "->")` never lengthens the text, and leaves it unchanged exactly when it contains no `-->` |
| Strings.ReplaceArrowFirst | subtitle_utils.py:113 | the pass turns the first `-->` into `->`, copies the arrow-free text before it, and treats the rest behind it the same way |
| Strings.ReplaceArrowLeavesArrow | subtitle_utils.py:113 | the single pass turns `--->` into `-->`, so the fallback text may still contain an arrow |
| Segmentation.Decide | subtitle_utils.py:55-76 | a cut happens only with a pending cue; an extension stays within the width; a segment start closes a pending cue while segments are preserved; a long pause closes one when a line cap is set; conversely, a cut happens only at a segment start while preserving, at a long pause without preserving, or with the line count at the cap; a word that fits on a non-empty line extends it unless a segment break or a long pause intervenes, and a new line opens only for a word that does not fit; with a pending cue at `max_line_count`, every word that does not continue the line cuts |
| Segmentation.Step | subtitle_utils.py:54-80 | one iteration applies the decision; `Segmentation.StepShape` states its effect on the cue lists and `CueLines.StepKeepsLines` its effect on `line_len` and `line_count` |
| Segmentation.Run | subtitle_utils.py:52-80 | the loop over the stream; `Segmentation.RunKeepsPart` states its invariant |
| Segmentation.Close | subtitle_utils.py:81-82 | the final flush yields the pending cue only when it is non-empty; `Segmentation.Cues` states the resulting partition |
| Segmentation.Stream | subtitle_utils.py:52-53 | the nested loop visits every word of every segment once, in order |
| CueBreaks.StreamMarksExactly | subtitle_utils.py:52-57 | a word of the stream is marked as a segment start (`i == 0`) if and only if it is the first word of a segment with words |
| Segmentation.StepShape | subtitle_utils.py:54-80 | each iteration appends exactly one word, related to its input word, to the pending cue or to a new one, and records its start as `last` |
| Segmentation.RunKeepsPart | subtitle_utils.py:46-82 | the loop's output so far is its input so far, word by word, and every finished cue opens with a stripped word |
| Segmentation.Cues | subtitle_utils.py:46-82 | the yielded cues are non-empty, open with a stripped word, and together are every input word once, in order, with the same times and the text unchanged, stripped, or stripped behind `"\n"` |
| CueLines.StepKeepsLines | subtitle_utils.py:56-78 | every iteration keeps `line_count` equal to the pending cue's number of lines and `line_len` equal to its last line's length, and every cue fits |
| CueLines.CuesFit | subtitle_utils.py:46-82 | every yielded cue satisfies the width and line-count bounds of the decoded options |
| CueLines.NewLineOverflows | subtitle_utils.py:55-77 | lines are filled greedily: a word opens a new line in its cue only when its input text, added to the length of the line before it, exceeds `max_line_width` (1000 when absent) |
| CueLines.WidthBound | subtitle_utils.py:43-78 | every line of every cue is at most `max_line_width` (1000 when absent) long, or shows a single word |
| CueLines.CapOnlyExtends | subtitle_utils.py:58-73 | once the words before word `i` of a cue have `max_line_count` lines, word `i` does not start a line and the line before it is not empty: a cue at the cap takes only words that continue its line, and any other word opens the next cue |
| CueLines.LineCountBound | subtitle_utils.py:64-77 | with `max_line_count` set to `L`, no cue has more than `max(1, L)` lines, whether or not segments are preserved |
| CueLines.LineCountIsBreaks | subtitle_utils.py:74-77 | a cue has one line more than it has `"\n"`-prefixed words |
| CueLines.CueTextIsLines | subtitle_utils.py:77-88 | the cue text is its lines' texts joined with `"\n"` |
| CueBreaks.CuesBreak | subtitle_utils.py:55-73 | every word that must open a cue (segment start while preserving, long pause otherwise) is the first word of a yielded cue |
| CueBreaks.SegmentStartsOpenCues | subtitle_utils.py:44-73 | when either cap is unset, the first word of every later segment opens a cue, so no cue spans two segments |
| CueBreaks.LongPauseOpensCue | subtitle_utils.py:51-80 | with both caps set, a word starting more than 3.0 s after the previous word's start opens a cue |
| CueBreaks.PauseAtLimitKeepsCue | subtitle_utils.py:51-80 | a gap of exactly 3.0 s keeps both words in one cue |
| CueBreaks.PauseOverLimitCuts | subtitle_utils.py:51-80 | a gap of 3.001 s splits the two words into two cues |
| CueBreaks.EmptyLineAtCapCuts | subtitle_utils.py:58-80 | a concrete example: with `max_line_count` 1, a blank word fills the first line with `""` and the following `" hi"` is yielded as a cue of its own, `[[""], ["hi"]]` |
| CueBreaks.CueStartsHaveReason | subtitle_utils.py:55-76 | conversely, for line-break-free words every cue after the first opens at a segment start while preserving, at a long pause while not preserving with a cap set, or after a cue already holding `max_line_count` lines |
| CueBreaks.SegmentCuesExactly | subtitle_utils.py:44-76 | without `max_line_count`, a later word opens a cue if and only if it starts its segment |
| CueBreaks.CuesOpenStripped | subtitle_utils.py:61-79 | each cue opens with its input word, stripped, at the input word's start |
| Render.LeadLen | subtitle_utils.py:100 | `^(\s*)` captures the longest all-whitespace prefix of the word |
| Render.Underline | subtitle_utils.py:100 | the `re.sub` rewrite of one word; `Render.EmphasizedLine` states its effect on a word with no line break after its leading whitespace |
| Render.EmphasizedLine | subtitle_utils.py:98-105 | the underlined line is every other text verbatim, with the chosen word split into its leading whitespace and `<u>` rest `</u>` |
| Render.HighlightUnderlinesWord | subtitle_utils.py:91-105 | for cues of line-break-free input words, the triple for word `i` underlines exactly word `i` behind its leading whitespace |
| Render.HighlightFrom | subtitle_utils.py:89-106 | the highlight loop with its `last` variable yields triples that chain end to start, at least one per word, from `last` to the last word's end; `Render.HighlightIsSpec` gives the exact triples |
| Render.HighlightCue | subtitle_utils.py:89-106 | the highlight triples of a cue chain end to start, number at least one per word, start with word 0's own triple (never a filler first), and end at the last word's formatted end |
| Render.HighlightIsSpec | subtitle_utils.py:89-106 | the loop with its `last` variable yields exactly the stateless reference: per word, a filler when the previous end and this start differ as strings, then the word's own triple |
| Render.HighlightContiguous | subtitle_utils.py:92-106 | when each word's formatted end equals the next word's formatted start, the triples are exactly the words' own triples, one per word and in order, with no filler |
| Render.HighlightCountsGaps | subtitle_utils.py:95-96 | there is exactly one triple per word if and only if no formatted gap appears between words |
| Render.HighlightWordCount | subtitle_utils.py:85-106 | in highlight mode the output has at least one triple per input word |
| Render.PlainTriples | subtitle_utils.py:107-108 | without highlighting, cue `k` yields exactly one triple, its own |
| Render.PlainCue | subtitle_utils.py:86-108 | the plain triple of a cue; `Render.PlainCueTimes` states its times and text |
| Render.Triples | subtitle_utils.py:85-108 | the triples of all cues in cue order; `Render.PlainTriples` and `Render.HighlightTriplesAreSpec` state them per mode |
| Render.HighlightTriplesAreSpec | subtitle_utils.py:85-106 | over all cues, the highlight loop yields exactly the stateless reference, cue after cue |
| Render.PlainCueTimes | subtitle_utils.py:85-108 | without highlighting, triple `k` runs from the input start of cue `k`'s first word to the input end of its last word, with the joined texts |
| Render.FallbackCue | subtitle_utils.py:110-114 | a segment's triple has the segment's own times; its text is no longer than the stripped text, and equals it exactly when that holds no `-->` |
| Render.FallbackReplacesArrow | subtitle_utils.py:110-114 | the fallback text is the stripped text with its first `-->` shortened to `->`, the text before it kept, and the rest treated the same way |
| Render.FallbackArrowExample | subtitle_utils.py:110-114 | a segment reading `a-->b` is shown as `a->b` |
| Render.Fallback | subtitle_utils.py:109-114 | without word timings there is one triple per segment, in order |
| Render.IterateResult | subtitle_utils.py:84-114 | the result is missing exactly for an empty segment list; otherwise it is the fallback, one triple per cue, or at least one triple per word |
| Render.WordMode | subtitle_utils.py:84-108 | with word timings, plain mode yields exactly the plain triple of cue `k` at position `k`, and highlight mode yields, cue after cue, a filler over every gap between formatted word times followed by each word's underlined triple |
| Vtt.Serialize | subtitle_utils.py:126-128 | the file text begins with `WEBVTT\n\n` |
| Vtt.Block | subtitle_utils.py:128 | the block written per triple; `Vtt.BlockExample` shows its layout and `Vtt.BlockInFile` its place in the file |
| Vtt.SerializeAppend | subtitle_utils.py:127-128 | one more triple appends exactly its block to the file |
| Vtt.BlockInFile | subtitle_utils.py:126-128 | block `k` appears verbatim in the file, right after the header and the blocks before it |
| Vtt.SerializeOne | subtitle_utils.py:126-128 | a single triple gives the header followed by its block |
| Vtt.BlockExample | subtitle_utils.py:128 | a block is the timings line `start --> end align:middle`, the text, and an empty line |
| Vtt.WriteResult | subtitle_utils.py:124-128 | the file always starts with the header; writing raises exactly for an empty segment list, leaving only the header; otherwise the file is the serialized triples |
| Transcript.TranscriptText | transcript.py:47-50 | the transcript text is the segments' texts concatenated in order; every split point divides it into the texts before and after |
| Transcript.EffectiveOptions | transcript.py:83-88 | given options are used as they are; without them the width is 28, the cap 2, no highlighting, and segments are not preserved |
| Transcript.WriteSubtitles | transcript.py:82-90 | the subtitles file is the serialized result of the effective options, and writing raises exactly for an empty segment list |
| Transcript.DefaultCuesFit | transcript.py:83-88 | with the default options no cue has more than 2 lines, and every line is at most 28 characters or a single word |
| Transcript.DstFilename | transcript.py:132 | the translated file name always has the extension `vtt` |
| Transcript.DstFilenameStem | transcript.py:132 | the name is the source up to its last `.` (all of it when there is none), `_`, the language, then `.vtt` |
| Transcript.PublicUrl | transcript.py:138-141 | the URL is the server address and `/upload_files/`, followed by a name with no `/`: the whole file name when it has no `/`, and otherwise the part after its last `/`, the rest of the name preceding it |
| Transcript.PublicUrlBase | transcript.py:138-141 | the URL names the file without its directories |
| Transcript.TargetLangExamples | transcript.py:108 | `de` reaches the translator as `De` and `EN-US` as `En-us` |
| Transcript.Record | transcript.py:170-177 | a raising job leaves both maps unchanged; a returning one sets its language in both maps and touches no other key |
| Transcript.Aggregate | transcript.py:169-177 | the fold over outcomes gives two maps with the same keys; `Transcript.AggregateKeys`, `Transcript.AggregateFrom` and `Transcript.OrderIndependent` state the rest |
| Transcript.AggregateKeys | transcript.py:169-179 | both returned maps have the same keys, exactly the languages whose job returned |
| Transcript.AggregateFrom | transcript.py:169-177 | every entry is the URL and path of a returned job of that language |
| Transcript.FailuresDropped | transcript.py:171-177 | the maps are those of the returned jobs alone, so failures only remove their own language |
| Transcript.OrderIndependent | transcript.py:169-177 | with distinct languages, any completion order gives the same maps |
| Transcript.AggregateJobs | transcript.py:132-177 | when the jobs translate one file, each language maps to its `dst_filename` and that file's public URL |
| Transcript.JobsOrderIndependent | transcript.py:163-177 | for jobs on one file, only the set of languages that returned matters, whatever the order and repetitions |
| Requests.AcceptedShape | app_utils.py:6 | every accepted extension is three characters, starts with `m` and holds no `/` |
| Requests.AllowedExtension | app_utils.py:9-11 | `allowed_extension`; `Requests.AllowedExtensionOf` states exactly which names it accepts |
| Requests.AllowedExtensionOf | app_utils.py:9-11 | `stem.ext` is accepted exactly when the lower-cased `ext` is in the set, and a name without `.` is refused |
| Requests.AllowedLastPart | app_utils.py:11 | `a.tar.mp3` is accepted |
| Requests.RefusedLastPart | app_utils.py:6-11 | `x.mp3.wav` is refused |
| Requests.AllowedAnyCase | app_utils.py:11 | for every name, the case of the extension does not matter: the name is accepted exactly when its lower-cased spelling is |
| Requests.RefusedNames | app_utils.py:6-11 | an empty extension (`a.`) and a bare `mp3` are refused |
| Requests.IsVttFile | app.py:121 | the `.vtt` check; `Requests.VttCheck` states exactly which names pass |
| Requests.VttCheck | app.py:121 | `stem.ext` passes exactly when `ext` is `vtt`; `a.VTT` is refused; every translated file name passes |
| Requests.SplitOn | app.py:108 | `split(c)` gives at least one piece, no piece holds `c`, and joining with `c` gives back the string |
| Requests.SubtitlesSrc | app.py:108 | the subtitles file name; `Requests.SubtitlesSrcStem` states it in terms of the path's last `.` |
| Requests.SubtitlesSrcStem | app.py:108 | `subtitles_src` is the path up to its last `.` plus `-subtitles.vtt`, or just `-subtitles.vtt` when the path has no `.` |
| Requests.PathJoin | app.py:61 | POSIX `os.path.join` of two parts; `Requests.PathJoinPrefix` states the relative case |
| Requests.PathJoinPrefix | app.py:61 | joining with a relative name appends it to a directory prefix that is empty or ends in `/` |
| Requests.UploadFilename | app.py:61 | the stored name is the upload folder's prefix followed by the URL's last `/`-piece |
| Requests.StoredSubtitles | app.py:108-112 | for a stored `stem.ext` under any directory, the subtitles are `stem-subtitles.vtt` in that directory, and the URL serves that name |
| Requests.SubtitlesLink | app.py:101-112 | for an accepted upload, the subtitles sit next to the stored file and are named after the URL's last piece without its extension, and the returned URL serves exactly that name |

## Left out

- Transcription: the Whisper model, the `torch` device choice and `get_transcript`'s call into the model are an ML library. The transcript's segments are an input.
- Translation calls: the DeepL client and `_translate_text` are external, and so are reading and saving WebVTT files with `webvtt`. Only the language code passed on (`capitalize()`) and the names and URLs are modelled.
- Concurrency: the process pool and its scheduling are left out. The aggregation is a fold over outcomes given in completion order.
- Outcomes: an `Err` outcome stands for any `Exception` a job raised. A `BaseException` that escapes the loop is not modelled.
- File and network I/O: `ResultWriter.__call__`, `open` and `print` are modelled only as the text written. `download_file`, `remove_file` and `remove_files_parallel` are left out.
- Absolute paths: `get_file` returns `os.path.abspath` of the joined name. `abspath` is not modelled; `Requests.StoredSubtitles` holds for any directory prefix.
- Web glue: the FastAPI routing, `HTTPException`s, `Settings` and `static/script.js` are left out.
- Timestamps: `format_timestamp` is a parameter, so no timestamp layout (hours or not) is assumed.
- Times: float seconds and their rounding are replaced by integer milliseconds.
- Option keys: the `KeyError` on an options dict missing a key is not modelled. The options record always has all three fields.
- Word timings: a segment whose `words` is `None` is not modelled. A missing word list is the empty sequence.
- Strings.Strip: whitespace is the fixed set of characters Python's `str.isspace` accepts. Unicode tables beyond that set are not consulted.
- Strings.Lower: lower-cases ASCII letters only, not Python's full Unicode case mapping.
- Strings.Capitalize: changes ASCII letters only, not Python's full Unicode case mapping.
- CueLines.WidthBound: assumes no input word contains a line break, as Whisper's words do not.
- CueLines.LineCountBound: assumes no input word contains a line break, as Whisper's words do not.
- CueLines.StepKeepsLines: assumes the word has no line break, as in CueLines.WidthBound.
- CueLines.CuesFit: assumes no input word contains a line break, as in CueLines.WidthBound.
- CueLines.NewLineOverflows: assumes no input word contains a line break, as in CueLines.WidthBound.
- CueLines.CapOnlyExtends: assumes no input word contains a line break, as in CueLines.WidthBound.
- Transcript.DefaultCuesFit: assumes no input word contains a line break, as in CueLines.WidthBound.
- CueBreaks.CueStartsHaveReason: the cap reason is stated only for input words without line breaks, as in CueLines.WidthBound.
- Render.HighlightUnderlinesWord: states the underlining only for input words without line breaks. The regex rewrite of other words is modelled by `Render.Underline`, but nothing is proved about it.
- Render.IterateResult: in highlight mode the contract gives only a lower bound on the number of triples. `Render.HighlightIsSpec` and `Render.HighlightContiguous` give the exact triples per cue.
- Requests.PathJoinPrefix: covers POSIX `os.path.join` only.

=== FILE: breaks.dfy ===
/** Where cues start. With segments preserved every segment's first word
    opens a cue; with both caps set every word that starts more than three
    seconds after the previous word opens a cue (subtitle_utils.py:53-62).
    Every cue opens with its input word stripped. */
module CueBreaks {
  import opened Wrappers
  import opened Strings
  import opened Timing
  import opened Segmentation
  import opened CueLines

  /** Word `i` of the stream must open a cue: it starts a segment while
      segments are kept, or it follows a long pause while they are not and
      a line-count cap is set. */
  predicate Forced(c: Config, ts: seq<Tok>, i: int)
    requires 0 < i < |ts|
  {
    || (c.preserve && ts[i].first)
    || (!c.preserve && c.maxCount.Some? && ts[i].word.start - ts[i - 1].word.start > PauseLimit)
  }

  /** Every forced word seen so far opens a cue, the pending one included. */
  ghost predicate BreakInv(c: Config, ts: seq<Tok>, st: State) {
    |ts| > 0 ==> forall i :: 0 < i < |ts| && Forced(c, ts, i) ==> i in Offsets(st.done + [st.pending])
  }

  /** Extending the stream does not change whether an earlier word is forced. */
  lemma {:induction false} ForcedPrefix(c: Config, ts: seq<Tok>, t: Tok, i: int)
    requires 0 < i < |ts|
    ensures Forced(c, ts + [t], i) == Forced(c, ts, i)
  {
    assert (ts + [t])[i] == ts[i] && (ts + [t])[i - 1] == ts[i - 1];
  }

  /** A step that does not close a cue leaves the cue starts as they were;
      one that does adds the new word's position. */
  lemma {:induction false} StepOffsets(st: State, st': State, o: Word, cut: bool, n: int)
    requires Appended(st, st', o, cut)
    requires |Flatten(st.done) + st.pending| == n
    ensures cut ==> Offsets(st'.done + [st'.pending]) == Offsets(st.done + [st.pending]) + [n]
    ensures !cut ==> Offsets(st'.done + [st'.pending]) == Offsets(st.done + [st.pending])
  {
    FlattenSnoc(st.done, st.pending);
    if cut {
      FlattenSnoc(st.done + [st.pending], [o]);
    } else {
      FlattenSnoc(st.done, st.pending + [o]);
    }
  }

  /** A forced word makes the loop close the pending cue. */
  lemma {:induction false} ForcedCuts(c: Config, ts: seq<Tok>, st: State, t: Tok, last0: int)
    requires PartInv(ts, st, last0) && |ts| > 0
    requires Forced(c, ts + [t], |ts|)
    ensures Decide(c, st, t) == Cut
  {
    assert (ts + [t])[|ts|] == t && (ts + [t])[|ts| - 1] == ts[|ts| - 1];
  }

  lemma {:induction false} StepKeepsBreaks(c: Config, ts: seq<Tok>, st: State, t: Tok, last0: int)
    requires PartInv(ts, st, last0) && BreakInv(c, ts, st)
    ensures BreakInv(c, ts + [t], Step(c, st, t))
  {
    var st' := Step(c, st, t);
    var n := |ts|;
    if n > 0 {
      StepShape(c, st, t);
      var cut := Decide(c, st, t) == Cut;
      StepOffsets(st, st', LastWord(st'.pending), cut, n);
      if Forced(c, ts + [t], n) {
        ForcedCuts(c, ts, st, t, last0);
      }
      forall i | 0 < i < n + 1 && Forced(c, ts + [t], i)
        ensures i in Offsets(st'.done + [st'.pending])
      {
        if i < n {
          ForcedPrefix(c, ts, t, i);
        }
      }
    }
  }

  lemma {:induction false} StepKeepsBreaksAt(c: Config, ts: seq<Tok>, st: State, last0: int)
    requires |ts| > 0
    requires PartInv(ts[..|ts| - 1], st, last0) && BreakInv(c, ts[..|ts| - 1], st)
    ensures BreakInv(c, ts, Step(c, st, ts[|ts| - 1]))
  {
    var prefix, t := ts[..|ts| - 1], ts[|ts| - 1];
    StepKeepsBreaks(c, prefix, st, t, last0);
    assert prefix + [t] == ts;
  }

  lemma {:induction false} RunKeepsBreaks(c: Config, ts: seq<Tok>, last0: int)
    ensures BreakInv(c, ts, Run(c, Init(last0), ts))
    decreases |ts|
  {
    if |ts| > 0 {
      var prefix := ts[..|ts| - 1];
      RunKeepsBreaks(c, prefix, last0);
      RunKeepsPart(c, prefix, last0);
      StepKeepsBreaksAt(c, ts, Run(c, Init(last0), prefix), last0);
    }
  }

  /** The cues are the run's finished cues and its pending one, and every
      forced word opens one of them. */
  lemma {:induction false} CuesBreak(o: Options, segs: seq<Segment>)
    requires |segs| > 0 && |segs[0].words| > 0
    ensures forall i :: 0 < i < |Stream(segs)| && Forced(Decode(o), Stream(segs), i) ==> i in Offsets(Cues(o, segs))
  {
    var ts := Stream(segs);
    var last0 := segs[0].words[0].start;
    RunKeepsBreaks(Decode(o), ts, last0);
    RunKeepsPart(Decode(o), ts, last0);
  }

  /** The words of the first `k` segments are the first segment's words and
      then those of the next `k - 1`. */
  lemma {:induction false} AllWordsPrefix(segs: seq<Segment>, k: int)
    requires 0 < k <= |segs|
    ensures AllWords(segs[..k]) == segs[0].words + AllWords(segs[1..][..k - 1])
  {
    assert segs[..k][0] == segs[0];
    assert segs[..k][1..] == segs[1..][..k - 1];
  }

  /** The stream position of segment `k`'s first word is the number of words
      before it, and the stream marks it as a segment start. */
  lemma {:induction false} StreamMarksSegment(segs: seq<Segment>, k: int)
    requires 0 <= k < |segs| && |segs[k].words| > 0
    ensures |AllWords(segs[..k])| < |Stream(segs)|
    ensures Stream(segs)[|AllWords(segs[..k])|] == Tok(segs[k].words[0], true)
    decreases k
  {
    if k == 0 {
      assert segs[..0] == [];
      assert Stream(segs) == Tokens(segs[0].words) + Stream(segs[1..]);
    } else {
      var rest := segs[1..];
      StreamMarksSegment(rest, k - 1);
      AllWordsPrefix(segs, k);
      assert rest[k - 1] == segs[k];
      StreamShift(segs, |AllWords(rest[..k - 1])|);
    }
  }

  /** Past the first segment's words, the stream is the stream of the rest. */
  lemma {:induction false} StreamShift(segs: seq<Segment>, n: int)
    requires |segs| > 0 && 0 <= n < |Stream(segs[1..])|
    ensures |segs[0].words| + n < |Stream(segs)|
    ensures Stream(segs)[|segs[0].words| + n] == Stream(segs[1..])[n]
  {
    assert Stream(segs) == Tokens(segs[0].words) + Stream(segs[1..]);
  }

  /** Only segment starts are marked: a marked word is the first word of
      some segment. */
  lemma {:induction false} MarkedIsSegmentStart(segs: seq<Segment>, i: int)
    requires 0 <= i < |Stream(segs)| && Stream(segs)[i].first
    ensures exists k :: 0 <= k < |segs| && |segs[k].words| > 0 && i == |AllWords(segs[..k])|
    decreases |segs|
  {
    var head := segs[0].words;
    var rest := segs[1..];
    assert Stream(segs) == Tokens(head) + Stream(rest);
    if i < |head| {
      assert segs[..0] == [];
      assert |segs[0].words| > 0 && i == |AllWords(segs[..0])|;
    } else {
      var j := i - |head|;
      StreamShift(segs, j);
      MarkedIsSegmentStart(rest, j);
      var k :| 0 <= k < |rest| && |rest[k].words| > 0 && j == |AllWords(rest[..k])|;
      AllWordsPrefix(segs, k + 1);
      assert segs[k + 1] == rest[k];
      assert |segs[k + 1].words| > 0 && i == |AllWords(segs[..k + 1])|;
    }
  }

  /** The stream marks a word as a segment start if and only if it is the
      first word of a segment (`i == 0` in the inner loop). */
  lemma {:induction false} StreamMarksExactly(segs: seq<Segment>)
    ensures forall i :: 0 <= i < |Stream(segs)| ==>
      (Stream(segs)[i].first <==> exists k :: 0 <= k < |segs| && |segs[k].words| > 0 && i == |AllWords(segs[..k])|)
  {
    forall i | 0 <= i < |Stream(segs)|
      ensures Stream(segs)[i].first <==> exists k :: 0 <= k < |segs| && |segs[k].words| > 0 && i == |AllWords(segs[..k])|
    {
      if Stream(segs)[i].first {
        MarkedIsSegmentStart(segs, i);
      } else {
        forall k | 0 <= k < |segs| && |segs[k].words| > 0
          ensures i != |AllWords(segs[..k])|
        {
          StreamMarksSegment(segs, k);
        }
      }
    }
  }

  /** Segment boundaries are cue boundaries when segments are preserved
      (either cap left unset): the first word of every segment after the
      first word overall opens a cue. */
  lemma {:induction false} SegmentStartsOpenCues(o: Options, segs: seq<Segment>)
    requires |segs| > 0 && |segs[0].words| > 0
    requires o.maxLineWidth.None? || o.maxLineCount.None?
    ensures forall k :: 0 < k < |segs| && |segs[k].words| > 0 ==> |AllWords(segs[..k])| in Offsets(Cues(o, segs))
  {
    CuesBreak(o, segs);
    forall k | 0 < k < |segs| && |segs[k].words| > 0
      ensures |AllWords(segs[..k])| in Offsets(Cues(o, segs))
    {
      StreamMarksSegment(segs, k);
      assert segs[..k] == [segs[0]] + segs[1..k];
      assert AllWords(segs[..k]) == segs[0].words + AllWords(segs[..k][1..]);
      assert Forced(Decode(o), Stream(segs), |AllWords(segs[..k])|);
    }
  }

  /** With both caps set, a word that starts more than 3.0 seconds after the
      previous word starts opens a cue. */
  lemma {:induction false} LongPauseOpensCue(o: Options, segs: seq<Segment>)
    requires |segs| > 0 && |segs[0].words| > 0
    requires o.maxLineWidth.Some? && o.maxLineCount.Some?
    ensures var ws := AllWords(segs);
      forall i :: 0 < i < |ws| && ws[i].start - ws[i - 1].start > PauseLimit ==> i in Offsets(Cues(o, segs))
  {
    CuesBreak(o, segs);
    var ws := AllWords(segs);
    forall i | 0 < i < |ws| && ws[i].start - ws[i - 1].start > PauseLimit
      ensures i in Offsets(Cues(o, segs))
    {
      assert Forced(Decode(o), Stream(segs), i);
    }
  }

  /** Each cue opens with its input word, stripped, at the same times. */
  lemma {:induction false} CuesOpenStripped(o: Options, segs: seq<Segment>)
    requires |segs| > 0 && |segs[0].words| > 0
    ensures var cues := Cues(o, segs);
      forall k :: 0 <= k < |cues| ==>
        && 0 <= Offsets(cues)[k] < |AllWords(segs)|
        && cues[k][0].text == Strip(AllWords(segs)[Offsets(cues)[k]].text)
        && cues[k][0].start == AllWords(segs)[Offsets(cues)[k]].start
  {
    var cues := Cues(o, segs);
    var ws := AllWords(segs);
    forall k | 0 <= k < |cues|
      ensures 0 <= Offsets(cues)[k] < |ws|
      ensures cues[k][0].text == Strip(ws[Offsets(cues)[k]].text)
      ensures cues[k][0].start == ws[Offsets(cues)[k]].start
    {
      FlattenAt(cues, k, 0);
      var w := ws[Offsets(cues)[k]];
      OpeningWordStripped(w, cues[k][0]);
    }
  }

  /** An output word without surrounding whitespace is its input word stripped. */
  lemma {:induction false} OpeningWordStripped(w: Word, o: Word)
    requires Rel(w, o) && NoEdgeSpace(o.text)
    ensures o.text == Strip(w.text)
  {
    if o.text == w.text {
      StripNoEdge(w.text);
    }
  }

  /** Cue `k` of `cs` opens for a reason: its first word is forced, or a
      line-count cap is set and the cue before it had reached the cap (read
      through `Lines` when no word carries a line break). */
  ghost predicate Reason(c: Config, ts: seq<Tok>, cs: seq<seq<Word>>, k: int)
    requires 0 < k < |cs|
  {
    var i := Offsets(cs)[k];
    && 0 < i < |ts|
    && (|| Forced(c, ts, i)
        || (c.maxCount.Some? && (NoBreaks(Words(ts)) ==> |Lines(cs[k - 1])| >= c.maxCount.value)))
  }

  /** Every cue after the first, the pending one included, opened for a reason. */
  ghost predicate ReasonInv(c: Config, ts: seq<Tok>, st: State) {
    forall k :: 0 < k < |st.done + [st.pending]| ==> Reason(c, ts, st.done + [st.pending], k)
  }

  lemma {:induction false} NoBreaksSnoc(ts: seq<Tok>, t: Tok)
    requires NoBreaks(Words(ts + [t]))
    ensures NoBreaks(Words(ts))
    ensures '\n' !in t.word.text
  {
    NoBreaksPrefix(ts + [t]);
    assert (ts + [t])[..|ts|] == ts;
  }

  /** A cue the step opens has a reason: the decision to cut has one. */
  lemma {:induction false} CutHasReason(c: Config, ts: seq<Tok>, st: State, t: Tok, last0: int)
    requires PartInv(ts, st, last0) && |ts| > 0
    requires NoBreaks(Words(ts)) ==> LineInv(c, st)
    requires Decide(c, st, t) == Cut
    ensures || Forced(c, ts + [t], |ts|)
            || (c.maxCount.Some? && (NoBreaks(Words(ts + [t])) ==> |Lines(st.pending)| >= c.maxCount.value))
  {
    assert (ts + [t])[|ts|] == t && (ts + [t])[|ts| - 1] == ts[|ts| - 1];
    if NoBreaks(Words(ts + [t])) {
      NoBreaksSnoc(ts, t);
    }
  }

  /** A cue that was already open keeps its start and the cue before it. */
  lemma {:induction false} OldReasonKept(c: Config, ts: seq<Tok>, t: Tok, cs: seq<seq<Word>>, cs': seq<seq<Word>>, k: int)
    requires 0 < k < |cs| <= |cs'|
    requires Offsets(cs')[k] == Offsets(cs)[k] && cs'[k - 1] == cs[k - 1]
    requires Reason(c, ts, cs, k)
    ensures Reason(c, ts + [t], cs', k)
  {
    ForcedPrefix(c, ts, t, Offsets(cs)[k]);
    if NoBreaks(Words(ts + [t])) {
      NoBreaksSnoc(ts, t);
    }
  }

  /** Growing the cue list at its end keeps the reasons of the cues before. */
  lemma {:induction false} OldReasonsKept(c: Config, ts: seq<Tok>, t: Tok, cs: seq<seq<Word>>, cs': seq<seq<Word>>)
    requires 0 < |cs| <= |cs'|
    requires Offsets(cs')[..|cs|] == Offsets(cs)
    requires cs'[..|cs| - 1] == cs[..|cs| - 1]
    requires forall k :: 0 < k < |cs| ==> Reason(c, ts, cs, k)
    ensures forall k :: 0 < k < |cs| ==> Reason(c, ts + [t], cs', k)
  {
    forall k | 0 < k < |cs|
      ensures Reason(c, ts + [t], cs', k)
    {
      assert Offsets(cs')[k] == Offsets(cs')[..|cs|][k];
      assert cs'[k - 1] == cs'[..|cs| - 1][k - 1];
      OldReasonKept(c, ts, t, cs, cs', k);
    }
  }

  /** A step that closes a cue gives the new pending cue a reason. */
  lemma {:induction false} CutKeepsReasons(c: Config, ts: seq<Tok>, st: State, t: Tok, last0: int, cs': seq<seq<Word>>)
    requires PartInv(ts, st, last0) && ReasonInv(c, ts, st) && |ts| > 0
    requires NoBreaks(Words(ts)) ==> LineInv(c, st)
    requires Decide(c, st, t) == Cut
    requires |cs'| > 0 && cs'[..|cs'| - 1] == st.done + [st.pending]
    requires Offsets(cs') == Offsets(st.done + [st.pending]) + [|ts|]
    ensures forall k :: 0 < k < |cs'| ==> Reason(c, ts + [t], cs', k)
  {
    var cs := st.done + [st.pending];
    CutHasReason(c, ts, st, t, last0);
    assert cs'[|cs'| - 2] == st.pending;
    assert Reason(c, ts + [t], cs', |cs'| - 1);
    assert cs'[..|cs| - 1] == cs[..|cs| - 1];
    OldReasonsKept(c, ts, t, cs, cs');
  }

  lemma {:induction false} StepKeepsReasons(c: Config, ts: seq<Tok>, st: State, t: Tok, last0: int)
    requires PartInv(ts, st, last0) && ReasonInv(c, ts, st)
    requires NoBreaks(Words(ts)) ==> LineInv(c, st)
    ensures ReasonInv(c, ts + [t], Step(c, st, t))
  {
    var st' := Step(c, st, t);
    var n := |ts|;
    var cs, cs' := st.done + [st.pending], st'.done + [st'.pending];
    StepShape(c, st, t);
    var cut := Decide(c, st, t) == Cut;
    if n == 0 {
      assert Decide(c, st, t) == Fill;
      assert |cs'| == 1;
    } else {
      StepOffsets(st, st', LastWord(st'.pending), cut, n);
      if cut {
        assert cs'[..|cs'| - 1] == cs;
        CutKeepsReasons(c, ts, st, t, last0, cs');
      } else {
        assert Offsets(cs')[..|cs|] == Offsets(cs);
        assert cs'[..|cs| - 1] == cs[..|cs| - 1];
        OldReasonsKept(c, ts, t, cs, cs');
      }
    }
  }

  lemma {:induction false} StepKeepsReasonsAt(c: Config, ts: seq<Tok>, st: State, last0: int)
    requires |ts| > 0
    requires PartInv(ts[..|ts| - 1], st, last0) && ReasonInv(c, ts[..|ts| - 1], st)
    requires NoBreaks(Words(ts[..|ts| - 1])) ==> LineInv(c, st)
    ensures ReasonInv(c, ts, Step(c, st, ts[|ts| - 1]))
  {
    var prefix, t := ts[..|ts| - 1], ts[|ts| - 1];
    StepKeepsReasons(c, prefix, st, t, last0);
    assert prefix + [t] == ts;
  }

  lemma {:induction false} RunKeepsReasons(c: Config, ts: seq<Tok>, last0: int)
    ensures ReasonInv(c, ts, Run(c, Init(last0), ts))
    decreases |ts|
  {
    if |ts| > 0 {
      var prefix := ts[..|ts| - 1];
      RunKeepsReasons(c, prefix, last0);
      RunKeepsPart(c, prefix, last0);
      if NoBreaks(Words(prefix)) {
        RunKeepsLines(c, prefix, last0);
      }
      StepKeepsReasonsAt(c, ts, Run(c, Init(last0), prefix), last0);
    }
  }

  /** Cues open only for a reason: every cue after the first starts at a
      forced word (a segment start while segments are kept, a long pause
      while they are not and a cap is set), or the cue before it already
      holds `max_line_count` lines. */
  lemma {:induction false} CueStartsHaveReason(o: Options, segs: seq<Segment>)
    requires |segs| > 0 && |segs[0].words| > 0
    requires NoBreaks(AllWords(segs))
    ensures var cues, ts := Cues(o, segs), Stream(segs);
      forall k :: 0 < k < |cues| ==>
        && 0 < Offsets(cues)[k] < |ts|
        && (|| Forced(Decode(o), ts, Offsets(cues)[k])
            || (o.maxLineCount.Some? && |Lines(cues[k - 1])| >= o.maxLineCount.value))
  {
    var ts := Stream(segs);
    var c := Decode(o);
    var cues := Cues(o, segs);
    var last0 := segs[0].words[0].start;
    RunKeepsReasons(c, ts, last0);
    RunKeepsPart(c, ts, last0);
    assert Words(ts) == AllWords(segs);
    forall k | 0 < k < |cues|
      ensures 0 < Offsets(cues)[k] < |ts|
      ensures || Forced(c, ts, Offsets(cues)[k])
              || (o.maxLineCount.Some? && |Lines(cues[k - 1])| >= o.maxLineCount.value)
    {
      assert Reason(c, ts, cues, k);
    }
  }

  /** The first cue opens at the first word. */
  lemma {:induction false} FirstOffset(cs: seq<seq<Word>>)
    requires |cs| > 0
    ensures Offsets(cs)[0] == 0
    decreases |cs|
  {
    if |cs| > 1 {
      FirstOffset(cs[..|cs| - 1]);
    }
  }

  /** Without a line-count cap, cues open exactly at segment starts: a word
      after the first opens a cue if and only if it starts its segment. */
  lemma {:induction false} SegmentCuesExactly(o: Options, segs: seq<Segment>)
    requires |segs| > 0 && |segs[0].words| > 0
    requires o.maxLineCount.None?
    ensures var ts := Stream(segs);
      forall i :: 0 < i < |ts| ==> (i in Offsets(Cues(o, segs)) <==> ts[i].first)
  {
    var ts := Stream(segs);
    var cues := Cues(o, segs);
    var c := Decode(o);
    var last0 := segs[0].words[0].start;
    CuesBreak(o, segs);
    RunKeepsReasons(c, ts, last0);
    RunKeepsPart(c, ts, last0);
    FirstOffset(cues);
    forall i | 0 < i < |ts| && i in Offsets(cues)
      ensures ts[i].first
    {
      var k :| 0 <= k < |cues| && Offsets(cues)[k] == i;
      assert Reason(c, ts, cues, k);
    }
  }

  /** Two words of one segment, the second starting `gap` milliseconds after the first. */
  function TwoWords(gap: int): seq<Segment> {
    [Segment([Word(" one", 0, 500), Word(" two", gap, gap + 500)], 0, gap + 500, " one two")]
  }

  /** The first step of the run on `TwoWords`: the first word, stripped,
      fills the empty first line. */
  lemma {:induction false} TwoWordsStart(gap: int)
    ensures |Stream(TwoWords(gap))| == 2
    ensures Stream(TwoWords(gap))[0] == Tok(Word(" one", 0, 500), true)
    ensures Stream(TwoWords(gap))[1] == Tok(Word(" two", gap, gap + 500), false)
    ensures Run(Decode(Options(Some(42), Some(2), false)), Init(0), Stream(TwoWords(gap))[..1])
         == State(3, 1, [], [Word("one", 0, 500)], 0)
  {
    var ts := Stream(TwoWords(gap));
    assert ts == Tokens(TwoWords(gap)[0].words) + Stream(TwoWords(gap)[1..]);
    assert ts[..1][..0] == [];
    assert Strip(" one") == "one" by {
      assert " one"[1..] == "one";
    }
  }

  /** A gap of exactly 3.0 seconds is not a long pause: one cue. */
  lemma {:induction false} PauseAtLimitKeepsCue()
    ensures Cues(Options(Some(42), Some(2), false), TwoWords(3000)) == [[Word("one", 0, 500), Word(" two", 3000, 3500)]]
  {
    var ts := Stream(TwoWords(3000));
    TwoWordsStart(3000);
    var c := Decode(Options(Some(42), Some(2), false));
    var st1 := State(3, 1, [], [Word("one", 0, 500)], 0);
    assert Decide(c, st1, ts[1]) == Extend;
    var st2 := Step(c, st1, ts[1]);
    assert st2 == State(7, 1, [], [Word("one", 0, 500), Word(" two", 3000, 3500)], 3000);
    assert Run(c, Init(0), ts) == st2;
  }

  /** A gap of 3.001 seconds is: the second word opens a new cue. */
  lemma {:induction false} PauseOverLimitCuts()
    ensures Cues(Options(Some(42), Some(2), false), TwoWords(3001)) == [[Word("one", 0, 500)], [Word("two", 3001, 3501)]]
  {
    var ts := Stream(TwoWords(3001));
    TwoWordsStart(3001);
    var c := Decode(Options(Some(42), Some(2), false));
    var st1 := State(3, 1, [], [Word("one", 0, 500)], 0);
    assert Decide(c, st1, ts[1]) == Cut;
    assert Strip(" two") == "two" by {
      assert " two"[1..] == "two";
    }
    StripIdempotent(" two");
    assert Run(c, Init(0), ts) == Step(c, st1, ts[1]);
  }

  /** A blank word and then `" hi"`, in one segment. */
  function BlankThenHi(): seq<Segment> {
    [Segment([Word(" ", 0, 500), Word(" hi", 1000, 1500)], 0, 1500, "  hi")]
  }

  /** With one line allowed, the blank word fills the first line with an
      empty text; the cue is then at the cap, so `" hi"`, which cannot
      continue an empty line, is yielded in a cue of its own rather than
      filling that line. */
  lemma {:induction false} EmptyLineAtCapCuts()
    ensures Cues(Options(Some(28), Some(1), false), BlankThenHi())
         == [[Word("", 0, 500)], [Word("hi", 1000, 1500)]]
  {
    var segs := BlankThenHi();
    var ts := Stream(segs);
    assert ts == Tokens(segs[0].words) + Stream(segs[1..]);
    assert ts[..1][..0] == [];
    var c := Decode(Options(Some(28), Some(1), false));
    assert Strip(" ") == "" by {
      assert " "[1..] == "";
    }
    assert Strip(" hi") == "hi" by {
      assert " hi"[1..] == "hi";
    }
    StripIdempotent(" hi");
    assert Decide(c, Init(0), ts[0]) == Fill;
    var st1 := State(0, 1, [], [Word("", 0, 500)], 0);
    assert Run(c, Init(0), ts[..1]) == st1;
    assert Decide(c, st1, ts[1]) == Cut;
    assert ts[..2] == ts;
    assert Run(c, Init(0), ts) == Step(c, st1, ts[1]);
  }
}

=== FILE: lines.dfy ===
/** The visual lines of a cue and the two bounds the segmentation keeps:
    every line fits `max_line_width` unless it shows one over-long word, and
    a cue has at most `max_line_count` lines (subtitle_utils.py:43, 56-78). */
module CueLines {
  import opened Wrappers
  import opened Strings
  import opened Timing
  import opened Segmentation

  /** The word opens a new visual line. */
  predicate Breaks(w: Word) {
    |w.text| > 0 && w.text[0] == '\n'
  }

  /** The visual lines of a cue: a new line starts at every word whose text
      begins with a line break. */
  function Lines(ws: seq<Word>): (r: seq<seq<Word>>)
    ensures |r| == 0 <==> |ws| == 0
    ensures forall j :: 0 <= j < |r| ==> |r[j]| > 0
    decreases |ws|
  {
    if |ws| == 0 then []
    else
      var ls := Lines(ws[..|ws| - 1]);
      var w := ws[|ws| - 1];
      if |ls| == 0 || Breaks(w) then ls + [[w]]
      else ls[..|ls| - 1] + [ls[|ls| - 1] + [w]]
  }

  lemma {:induction false} LinesSnoc(ws: seq<Word>, w: Word)
    ensures Lines(ws + [w]) ==
      var ls := Lines(ws);
      if |ls| == 0 || Breaks(w) then ls + [[w]] else ls[..|ls| - 1] + [ls[|ls| - 1] + [w]]
  {
    assert (ws + [w])[..|ws|] == ws;
  }

  /** Drops the line-break marker that opens a line. */
  function Bare(s: string): string {
    if |s| > 0 && s[0] == '\n' then s[1..] else s
  }

  /** The text a line shows. */
  function LineText(line: seq<Word>): string {
    Bare(CueText(line))
  }

  /** A line is at most `width` long, or shows exactly one word (any earlier
      words in it being empty). */
  predicate FitsWidth(line: seq<Word>, width: int) {
    |line| > 0 && (|LineText(line)| <= width || LineText(line) == Bare(line[|line| - 1].text))
  }

  function Max(a: int, b: int): int {
    if a < b then b else a
  }

  /** Every line of the cue fits the width, and the cue has no more lines than the cap. */
  ghost predicate CueFits(c: Config, cue: seq<Word>) {
    && (forall j :: 0 <= j < |Lines(cue)| ==> FitsWidth(Lines(cue)[j], c.width))
    && (c.maxCount.Some? ==> |Lines(cue)| <= Max(1, c.maxCount.value))
  }

  function LastLine(ws: seq<Word>): seq<Word>
    requires |ws| > 0
  {
    var ls := Lines(ws);
    ls[|ls| - 1]
  }

  /** The loop's line bookkeeping is exact: `line_count` is the pending cue's
      number of lines and `line_len` the length of its last line; every cue
      fits. */
  ghost predicate LineInv(c: Config, st: State) {
    && (forall k :: 0 <= k < |st.done| ==> CueFits(c, st.done[k]))
    && (|st.pending| == 0 ==> st.lineLen == 0 && st.lineCount == 1)
    && (|st.pending| > 0 ==>
          && CueFits(c, st.pending)
          && st.lineCount == |Lines(st.pending)|
          && st.lineLen == |LineText(LastLine(st.pending))|)
  }

  lemma {:induction false} CueTextSnoc(ws: seq<Word>, w: Word)
    ensures CueText(ws + [w]) == CueText(ws) + w.text
  {
    assert Texts(ws + [w]) == Texts(ws) + [w.text];
    ConcatAppend(Texts(ws), [w.text]);
    ConcatSingle(w.text);
  }

  lemma {:induction false} LineTextSnoc(line: seq<Word>, w: Word)
    requires !Breaks(w)
    ensures LineText(line + [w]) == LineText(line) + w.text
  {
    CueTextSnoc(line, w);
    var a := CueText(line);
    if |a| > 0 && a[0] == '\n' {
      assert (a + w.text)[1..] == a[1..] + w.text;
    }
  }

  lemma {:induction false} LineTextSingle(w: Word)
    ensures LineText([w]) == Bare(w.text)
  {
    assert [w] == [] + [w];
    CueTextSnoc([], w);
    assert CueText([]) == "";
  }

  lemma {:induction false} SingleLine(c: Config, w: Word)
    requires !Breaks(w)
    ensures Lines([w]) == [[w]]
    ensures CueFits(c, [w])
    ensures |LineText([w])| == |w.text|
  {
    LinesSnoc([], w);
    assert [] + [w] == [w];
    LineTextSingle(w);
  }

  /** What one step does to the line bookkeeping, by action. */
  lemma {:induction false} StepCounts(c: Config, st: State, t: Tok)
    requires '\n' !in t.word.text
    ensures var st' := Step(c, st, t);
      var o := LastWord(st'.pending);
      var a := Decide(c, st, t);
      && |st'.pending| > 0
      && (a != NewLine ==> !Breaks(o))
      && (a == NewLine ==> Breaks(o) && st'.lineCount == st.lineCount + 1 && st'.lineLen == |Bare(o.text)|)
      && (a == Cut ==> st'.lineCount == 1 && st'.lineLen == |o.text|)
      && (a == Extend ==> st'.lineCount == st.lineCount && st'.lineLen == st.lineLen + |o.text|)
      && (a == Fill ==> st'.lineCount == st.lineCount && st'.lineLen == |o.text|)
  {
    var w := t.word;
    StripIdempotent(w.text);
    StrippedHasNoBreak(w.text);
    StripAfterLineBreak(w.text);
    assert |w.text| > 0 ==> w.text[0] in w.text;
  }

  lemma {:induction false} CutKeepsLines(c: Config, st: State, st': State, o: Word)
    requires LineInv(c, st) && |st.pending| > 0
    requires st'.done == st.done + [st.pending] && st'.pending == [o]
    requires !Breaks(o) && st'.lineCount == 1 && st'.lineLen == |o.text|
    ensures LineInv(c, st')
  {
    SingleLine(c, o);
  }

  /** A word without a line break joins the cue's last line: the line
      count stays, the last line's text grows by the word, and the cue still
      fits when the grown line is within the width or was empty before. */
  lemma {:induction false} ExtendLastLine(c: Config, cue: seq<Word>, o: Word)
    requires |cue| > 0 && CueFits(c, cue) && !Breaks(o)
    requires |LineText(LastLine(cue))| + |o.text| <= c.width || |LineText(LastLine(cue))| <= 0
    ensures |Lines(cue + [o])| == |Lines(cue)|
    ensures LineText(LastLine(cue + [o])) == LineText(LastLine(cue)) + o.text
    ensures CueFits(c, cue + [o])
  {
    var ls := Lines(cue);
    var last := ls[|ls| - 1];
    LinesSnoc(cue, o);
    LineTextSnoc(last, o);
    var ls' := Lines(cue + [o]);
    assert ls' == ls[..|ls| - 1] + [last + [o]];
    forall j | 0 <= j < |ls'|
      ensures FitsWidth(ls'[j], c.width)
    {
      if j < |ls| - 1 {
        assert ls'[j] == ls[j];
      }
    }
  }

  lemma {:induction false} GrowKeepsLines(c: Config, st: State, st': State, o: Word)
    requires LineInv(c, st)
    requires st'.done == st.done && st'.pending == st.pending + [o]
    requires !Breaks(o) && st'.lineCount == st.lineCount && st'.lineLen == st.lineLen + |o.text|
    requires st'.lineLen <= c.width || st.lineLen <= 0
    ensures LineInv(c, st')
  {
    if |st.pending| == 0 {
      assert st'.pending == [o];
      SingleLine(c, o);
    } else {
      ExtendLastLine(c, st.pending, o);
    }
  }

  lemma {:induction false} NewLineKeepsLines(c: Config, st: State, st': State, o: Word)
    requires LineInv(c, st) && |st.pending| > 0
    requires st'.done == st.done && st'.pending == st.pending + [o]
    requires Breaks(o) && st'.lineCount == st.lineCount + 1 && st'.lineLen == |Bare(o.text)|
    requires c.maxCount.Some? ==> st.lineCount < c.maxCount.value
    ensures LineInv(c, st')
  {
    LinesSnoc(st.pending, o);
    LineTextSingle(o);
    var ls' := Lines(st'.pending);
    assert ls' == Lines(st.pending) + [[o]];
  }

  lemma {:induction false} StepKeepsLines(c: Config, st: State, t: Tok)
    requires LineInv(c, st)
    requires '\n' !in t.word.text
    ensures LineInv(c, Step(c, st, t))
  {
    var st' := Step(c, st, t);
    StepShape(c, st, t);
    StepCounts(c, st, t);
    var o := LastWord(st'.pending);
    match Decide(c, st, t)
    case Cut => CutKeepsLines(c, st, st', o);
    case NewLine => NewLineKeepsLines(c, st, st', o);
    case Extend => GrowKeepsLines(c, st, st', o);
    case Fill =>
      assert st.lineLen == 0;
      GrowKeepsLines(c, st, st', o);
  }

  lemma {:induction false} NoBreaksPrefix(ts: seq<Tok>)
    requires |ts| > 0 && NoBreaks(Words(ts))
    ensures NoBreaks(Words(ts[..|ts| - 1]))
    ensures '\n' !in ts[|ts| - 1].word.text
  {
    assert forall i :: 0 <= i < |ts| - 1 ==> Words(ts[..|ts| - 1])[i] == Words(ts)[i];
    assert Words(ts)[|ts| - 1] == ts[|ts| - 1].word;
  }

  lemma {:induction false} RunKeepsLines(c: Config, ts: seq<Tok>, last0: int)
    requires NoBreaks(Words(ts))
    ensures LineInv(c, Run(c, Init(last0), ts))
    decreases |ts|
  {
    if |ts| > 0 {
      var prefix := ts[..|ts| - 1];
      var t := ts[|ts| - 1];
      NoBreaksPrefix(ts);
      RunKeepsLines(c, prefix, last0);
      assert Run(c, Init(last0), ts) == Step(c, Run(c, Init(last0), prefix), t);
      StepKeepsLines(c, Run(c, Init(last0), prefix), t);
    }
  }

  /** Every cue the segmentation yields fits: the run's invariant read at the end. */
  lemma {:induction false} CuesFit(o: Options, segs: seq<Segment>)
    requires |segs| > 0 && |segs[0].words| > 0
    requires NoBreaks(AllWords(segs))
    ensures forall k :: 0 <= k < |Cues(o, segs)| ==> CueFits(Decode(o), Cues(o, segs)[k])
  {
    NoBreaksStream(segs);
    forall k | 0 <= k < |Cues(o, segs)|
      ensures CueFits(Decode(o), Cues(o, segs)[k])
    {
      CuesFitAt(Decode(o), Stream(segs), segs[0].words[0].start, Cues(o, segs), k);
    }
  }

  /** The yielded cues of a run are its finished cues and its pending one. */
  lemma {:induction false} CuesFitAt(c: Config, ts: seq<Tok>, last0: int, cs: seq<seq<Word>>, k: int)
    requires |ts| > 0 && NoBreaks(Words(ts))
    requires cs == Close(Run(c, Init(last0), ts))
    requires 0 <= k < |cs|
    ensures CueFits(c, cs[k])
  {
    var st := Run(c, Init(last0), ts);
    RunKeepsLines(c, ts, last0);
    RunYieldsPending(c, ts, last0);
    if k < |st.done| {
      assert cs[k] == st.done[k];
    }
  }

  /** Width bound: with `W` the given `max_line_width` (1000 when absent),
      every visual line of every cue is at most `W` characters long, or shows
      a single word. */
  lemma {:induction false} WidthBound(o: Options, segs: seq<Segment>)
    requires |segs| > 0 && |segs[0].words| > 0
    requires NoBreaks(AllWords(segs))
    ensures var cues := Cues(o, segs);
      var w := if o.maxLineWidth.None? then 1000 else o.maxLineWidth.value;
      forall k, j :: 0 <= k < |cues| && 0 <= j < |Lines(cues[k])| ==> FitsWidth(Lines(cues[k])[j], w)
  {
    CuesFit(o, segs);
  }

  /** Line-count bound: with `max_line_count` set to `L`, no cue has more
      than `max(1, L)` visual lines, whether or not segments are preserved. */
  lemma {:induction false} LineCountBound(o: Options, segs: seq<Segment>)
    requires |segs| > 0 && |segs[0].words| > 0
    requires NoBreaks(AllWords(segs))
    requires o.maxLineCount.Some?
    ensures forall k :: 0 <= k < |Cues(o, segs)| ==> |Lines(Cues(o, segs)[k])| <= Max(1, o.maxLineCount.value)
  {
    CuesFit(o, segs);
  }

  /** Number of words that open a line with a break. */
  function BreakCount(ws: seq<Word>): nat
    decreases |ws|
  {
    if |ws| == 0 then 0 else BreakCount(ws[..|ws| - 1]) + (if Breaks(ws[|ws| - 1]) then 1 else 0)
  }

  /** A cue whose first word carries no break has one line more than it has
      break-prefixed words. */
  lemma {:induction false} LineCountIsBreaks(ws: seq<Word>)
    requires |ws| > 0 && !Breaks(ws[0])
    ensures |Lines(ws)| == 1 + BreakCount(ws)
    decreases |ws|
  {
    var p := ws[..|ws| - 1];
    var w := ws[|ws| - 1];
    assert ws == p + [w];
    LinesSnoc(p, w);
    if |p| > 0 {
      assert p[0] == ws[0];
      LineCountIsBreaks(p);
    } else {
      assert BreakCount(p) == 0;
    }
  }

  /** The texts of the lines. */
  function LineTexts(ls: seq<seq<Word>>): (r: seq<string>)
    ensures |r| == |ls|
    ensures forall j :: 0 <= j < |ls| ==> r[j] == LineText(ls[j])
  {
    seq(|ls|, j requires 0 <= j < |ls| => LineText(ls[j]))
  }

  lemma {:induction false} BreakKeepsJoin(p: seq<Word>, w: Word)
    requires |p| > 0 && Breaks(w)
    requires CueText(p) == JoinOn(LineTexts(Lines(p)), '\n')
    ensures CueText(p + [w]) == JoinOn(LineTexts(Lines(p + [w])), '\n')
  {
    var ts := LineTexts(Lines(p));
    var b := Bare(w.text);
    calc {
      CueText(p + [w]);
      { CueTextSnoc(p, w); }
      CueText(p) + w.text;
      { assert w.text == "\n" + b; }
      JoinOn(ts, '\n') + ("\n" + b);
      { JoinOnSnoc(ts, b, '\n'); }
      JoinOn(ts + [b], '\n');
      { BreakLineTexts(p, w); }
      JoinOn(LineTexts(Lines(p + [w])), '\n');
    }
  }

  lemma {:induction false} BreakLineTexts(p: seq<Word>, w: Word)
    requires |p| > 0 && Breaks(w)
    ensures LineTexts(Lines(p + [w])) == LineTexts(Lines(p)) + [Bare(w.text)]
  {
    LinesSnoc(p, w);
    LineTextSingle(w);
    assert LineTexts(Lines(p) + [[w]]) == LineTexts(Lines(p)) + [Bare(w.text)];
  }

  lemma {:induction false} ExtendKeepsJoin(p: seq<Word>, w: Word)
    requires |p| > 0 && !Breaks(w)
    requires CueText(p) == JoinOn(LineTexts(Lines(p)), '\n')
    ensures CueText(p + [w]) == JoinOn(LineTexts(Lines(p + [w])), '\n')
  {
    var ts := LineTexts(Lines(p));
    calc {
      CueText(p + [w]);
      { CueTextSnoc(p, w); }
      JoinOn(ts, '\n') + w.text;
      { JoinOnExtend(ts, w.text, '\n'); }
      JoinOn(ts[..|ts| - 1] + [ts[|ts| - 1] + w.text], '\n');
      { ExtendLineTexts(p, w); }
      JoinOn(LineTexts(Lines(p + [w])), '\n');
    }
  }

  lemma {:induction false} ExtendLineTexts(p: seq<Word>, w: Word)
    requires |p| > 0 && !Breaks(w)
    ensures var ts := LineTexts(Lines(p));
      LineTexts(Lines(p + [w])) == ts[..|ts| - 1] + [ts[|ts| - 1] + w.text]
  {
    var ls := Lines(p);
    var last := ls[|ls| - 1];
    LinesSnoc(p, w);
    LineTextSnoc(last, w);
    LineTextsSetLast(ls, last + [w]);
  }

  lemma {:induction false} LineTextsSetLast(ls: seq<seq<Word>>, l: seq<Word>)
    requires |ls| > 0
    ensures LineTexts(ls[..|ls| - 1] + [l]) == LineTexts(ls)[..|ls| - 1] + [LineText(l)]
  {
    var a := ls[..|ls| - 1] + [l];
    var b := LineTexts(ls)[..|ls| - 1] + [LineText(l)];
    forall j | 0 <= j < |a|
      ensures LineTexts(a)[j] == b[j]
    {
      if j < |ls| - 1 {
        assert a[j] == ls[j];
      }
    }
  }

  /** One word without a break is one line showing that word. */
  lemma {:induction false} OneWordIsLine(w: Word)
    requires !Breaks(w)
    ensures CueText([w]) == JoinOn(LineTexts(Lines([w])), '\n')
  {
    SingleLine(Config(0, None, false), w);
    LineTextSingle(w);
    assert [] + [w] == [w];
    CueTextSnoc([], w);
    assert CueText([]) == "";
  }

  /** Appending a word keeps the cue text equal to its joined lines. */
  lemma {:induction false} SnocKeepsJoin(p: seq<Word>, w: Word)
    requires |p| > 0
    requires CueText(p) == JoinOn(LineTexts(Lines(p)), '\n')
    ensures CueText(p + [w]) == JoinOn(LineTexts(Lines(p + [w])), '\n')
  {
    if Breaks(w) {
      BreakKeepsJoin(p, w);
    } else {
      ExtendKeepsJoin(p, w);
    }
  }

  /** The cue text is its visual lines joined by line breaks: the lines
      modelled here are the lines a player shows. */
  lemma {:induction false} CueTextIsLines(ws: seq<Word>)
    requires |ws| > 0 && !Breaks(ws[0])
    ensures CueText(ws) == JoinOn(LineTexts(Lines(ws)), '\n')
    decreases |ws|
  {
    var p := ws[..|ws| - 1];
    var w := ws[|ws| - 1];
    if |p| == 0 {
      assert ws == [w];
      OneWordIsLine(w);
    } else {
      assert p[0] == ws[0];
      CueTextIsLines(p);
      calc {
        CueText(ws);
        { assert ws == p + [w]; }
        CueText(p + [w]);
        { SnocKeepsJoin(p, w); }
        JoinOn(LineTexts(Lines(p + [w])), '\n');
        { assert ws == p + [w]; }
        JoinOn(LineTexts(Lines(ws)), '\n');
      }
    }
  }

  /** Every word of cue `k` that opens a new line did not fit on the line
      before it: that line's length plus the input word's length exceeds the
      width. */
  ghost predicate Overflows(c: Config, ts: seq<Tok>, cs: seq<seq<Word>>, k: int)
    requires 0 <= k < |cs|
  {
    forall i :: 0 < i < |cs[k]| && Breaks(cs[k][i]) ==>
      && 0 <= Offsets(cs)[k] + i < |ts|
      && |LineText(LastLine(cs[k][..i]))| + |ts[Offsets(cs)[k] + i].word.text| > c.width
  }

  /** Every cue so far, the pending one included, breaks lines only on overflow. */
  ghost predicate FillInv(c: Config, ts: seq<Tok>, st: State) {
    forall k :: 0 <= k < |st.done + [st.pending]| ==> Overflows(c, ts, st.done + [st.pending], k)
  }

  /** The first `m` cues keep their words and their starts, so they keep
      overflowing where they did. */
  lemma {:induction false} OldOverflowsKept(c: Config, ts: seq<Tok>, t: Tok, cs: seq<seq<Word>>, cs': seq<seq<Word>>, m: int)
    requires 0 <= m <= |cs| && m <= |cs'|
    requires cs'[..m] == cs[..m] && Offsets(cs')[..m] == Offsets(cs)[..m]
    requires forall k :: 0 <= k < m ==> Overflows(c, ts, cs, k)
    ensures forall k :: 0 <= k < m ==> Overflows(c, ts + [t], cs', k)
  {
    forall k | 0 <= k < m
      ensures Overflows(c, ts + [t], cs', k)
    {
      assert cs'[k] == cs'[..m][k];
      assert Offsets(cs')[k] == Offsets(cs')[..m][k];
      assert Overflows(c, ts, cs, k);
      forall i | 0 < i < |cs'[k]| && Breaks(cs'[k][i])
        ensures 0 <= Offsets(cs')[k] + i < |ts| + 1
        ensures |LineText(LastLine(cs'[k][..i]))| + |(ts + [t])[Offsets(cs')[k] + i].word.text| > c.width
      {
        assert (ts + [t])[Offsets(cs)[k] + i] == ts[Offsets(cs)[k] + i];
      }
    }
  }

  /** The pending cue, which ends at the stream's end, grows by `o`; if `o`
      opens a line, the word it came from did not fit. */
  lemma {:induction false} PendingOverflows(c: Config, ts: seq<Tok>, t: Tok, cs: seq<seq<Word>>, cs': seq<seq<Word>>, o: Word)
    requires 0 < |cs| <= |cs'| && cs'[|cs| - 1] == cs[|cs| - 1] + [o]
    requires Offsets(cs')[|cs| - 1] == Offsets(cs)[|cs| - 1]
    requires 0 <= Offsets(cs)[|cs| - 1] && Offsets(cs)[|cs| - 1] + |cs[|cs| - 1]| == |ts|
    requires Overflows(c, ts, cs, |cs| - 1)
    requires Breaks(o) ==> |cs[|cs| - 1]| > 0 && |LineText(LastLine(cs[|cs| - 1]))| + |t.word.text| > c.width
    ensures Overflows(c, ts + [t], cs', |cs| - 1)
  {
    var k := |cs| - 1;
    var p, off := cs[k], Offsets(cs)[k];
    forall i | 0 < i < |cs'[k]| && Breaks(cs'[k][i])
      ensures 0 <= Offsets(cs')[k] + i < |ts| + 1
      ensures |LineText(LastLine(cs'[k][..i]))| + |(ts + [t])[Offsets(cs')[k] + i].word.text| > c.width
    {
      if i < |p| {
        assert cs'[k][i] == p[i];
        OldWordOverflows(c, ts, t, p, o, off, i);
      } else {
        NewWordOverflows(c, ts, t, p, o, off);
      }
    }
  }

  /** A word already in the pending cue keeps its line and its input word. */
  lemma {:induction false} OldWordOverflows(c: Config, ts: seq<Tok>, t: Tok, p: seq<Word>, o: Word, off: int, i: int)
    requires 0 <= off && 0 < i < |p| && off + |p| == |ts|
    requires |LineText(LastLine(p[..i]))| + |ts[off + i].word.text| > c.width
    ensures |LineText(LastLine((p + [o])[..i]))| + |(ts + [t])[off + i].word.text| > c.width
  {
    assert (p + [o])[..i] == p[..i];
    assert (ts + [t])[off + i] == ts[off + i];
  }

  /** The appended word sits behind the whole pending cue and came from `t`. */
  lemma {:induction false} NewWordOverflows(c: Config, ts: seq<Tok>, t: Tok, p: seq<Word>, o: Word, off: int)
    requires 0 <= off && |p| > 0 && off + |p| == |ts|
    requires |LineText(LastLine(p))| + |t.word.text| > c.width
    ensures |LineText(LastLine((p + [o])[..|p|]))| + |(ts + [t])[off + |p|].word.text| > c.width
  {
    assert (p + [o])[..|p|] == p;
    assert (ts + [t])[|ts|] == t;
  }

  /** The offsets of the finished cues and the pending one, and where the
      pending one ends. */
  lemma {:induction false} PendingAtEnd(ts: seq<Tok>, st: State, last0: int)
    requires PartInv(ts, st, last0)
    ensures var cs := st.done + [st.pending];
      && Offsets(cs) == Offsets(st.done) + [|Flatten(st.done)|]
      && |Flatten(st.done)| + |st.pending| == |ts|
  {
    FlattenSnoc(st.done, st.pending);
  }

  /** A step that closes the pending cue opens a one-word cue, which has no
      line to break. */
  lemma {:induction false} CutKeepsFill(c: Config, ts: seq<Tok>, st: State, st': State, t: Tok, o: Word)
    requires FillInv(c, ts, st)
    requires st'.done == st.done + [st.pending] && st'.pending == [o]
    ensures FillInv(c, ts + [t], st')
  {
    var cs, cs' := st.done + [st.pending], st'.done + [st'.pending];
    assert cs' == cs + [[o]];
    FlattenSnoc(cs, [o]);
    assert cs'[..|cs|] == cs[..|cs|];
    assert Offsets(cs')[..|cs|] == Offsets(cs)[..|cs|];
    OldOverflowsKept(c, ts, t, cs, cs', |cs|);
    assert cs'[|cs|] == [o];
  }

  /** A step that keeps the pending cue keeps every cue overflowing where it
      breaks: a new line opens only when the word does not fit. */
  lemma {:induction false} GrowKeepsFill(c: Config, ts: seq<Tok>, st: State, st': State, t: Tok, o: Word, last0: int)
    requires PartInv(ts, st, last0) && FillInv(c, ts, st)
    requires st'.done == st.done && st'.pending == st.pending + [o]
    requires Breaks(o) ==> |st.pending| > 0 && st.lineLen == |LineText(LastLine(st.pending))|
    requires Breaks(o) ==> st.lineLen + |t.word.text| > c.width
    ensures FillInv(c, ts + [t], st')
  {
    GrowShape(ts, st, st', o, last0);
    GrowOverflows(c, ts, t, st.done + [st.pending], st'.done + [st'.pending], o);
  }

  /** The last cue of `cs` grows by `o` and the others stay as they were. */
  lemma {:induction false} GrowOverflows(c: Config, ts: seq<Tok>, t: Tok, cs: seq<seq<Word>>, cs': seq<seq<Word>>, o: Word)
    requires |cs| > 0 && |cs'| == |cs| && cs'[..|cs| - 1] == cs[..|cs| - 1]
    requires cs'[|cs| - 1] == cs[|cs| - 1] + [o]
    requires Offsets(cs') == Offsets(cs)
    requires 0 <= Offsets(cs)[|cs| - 1] && Offsets(cs)[|cs| - 1] + |cs[|cs| - 1]| == |ts|
    requires forall k :: 0 <= k < |cs| ==> Overflows(c, ts, cs, k)
    requires Breaks(o) ==> |cs[|cs| - 1]| > 0 && |LineText(LastLine(cs[|cs| - 1]))| + |t.word.text| > c.width
    ensures forall k :: 0 <= k < |cs'| ==> Overflows(c, ts + [t], cs', k)
  {
    var k := |cs| - 1;
    OldOverflowsKept(c, ts, t, cs, cs', k);
    PendingOverflows(c, ts, t, cs, cs', o);
    forall j | 0 <= j < |cs'|
      ensures Overflows(c, ts + [t], cs', j)
    {
    }
  }

  /** Growing the pending cue leaves the finished cues and every cue's offset
      alone, and the pending cue still ends the stream. */
  lemma {:induction false} GrowShape(ts: seq<Tok>, st: State, st': State, o: Word, last0: int)
    requires PartInv(ts, st, last0)
    requires st'.done == st.done && st'.pending == st.pending + [o]
    ensures var cs, cs' := st.done + [st.pending], st'.done + [st'.pending];
      && |cs'| == |cs| && cs'[..|cs| - 1] == cs[..|cs| - 1]
      && cs'[|cs| - 1] == cs[|cs| - 1] + [o]
      && Offsets(cs') == Offsets(cs)
      && 0 <= Offsets(cs)[|cs| - 1] && Offsets(cs)[|cs| - 1] + |cs[|cs| - 1]| == |ts|
  {
    var cs, cs' := st.done + [st.pending], st'.done + [st'.pending];
    PendingAtEnd(ts, st, last0);
    FlattenSnoc(st.done, st.pending + [o]);
    assert Offsets(cs') == Offsets(cs);
    assert cs'[..|cs| - 1] == cs[..|cs| - 1];
  }

  lemma {:induction false} StepKeepsFill(c: Config, ts: seq<Tok>, st: State, t: Tok, last0: int)
    requires PartInv(ts, st, last0) && LineInv(c, st) && FillInv(c, ts, st)
    requires c.preserve || c.maxCount.Some?
    requires '\n' !in t.word.text
    ensures FillInv(c, ts + [t], Step(c, st, t))
  {
    var st' := Step(c, st, t);
    StepShape(c, st, t);
    StepCounts(c, st, t);
    var o := LastWord(st'.pending);
    if Decide(c, st, t) == Cut {
      CutKeepsFill(c, ts, st, st', t, o);
    } else {
      GrowKeepsFill(c, ts, st, st', t, o, last0);
    }
  }

  lemma {:induction false} StepKeepsFillAt(c: Config, ts: seq<Tok>, st: State, last0: int)
    requires |ts| > 0
    requires PartInv(ts[..|ts| - 1], st, last0) && LineInv(c, st) && FillInv(c, ts[..|ts| - 1], st)
    requires c.preserve || c.maxCount.Some?
    requires '\n' !in ts[|ts| - 1].word.text
    ensures FillInv(c, ts, Step(c, st, ts[|ts| - 1]))
  {
    var prefix, t := ts[..|ts| - 1], ts[|ts| - 1];
    StepKeepsFill(c, prefix, st, t, last0);
    assert prefix + [t] == ts;
  }

  lemma {:induction false} RunKeepsFill(c: Config, ts: seq<Tok>, last0: int)
    requires NoBreaks(Words(ts))
    requires c.preserve || c.maxCount.Some?
    ensures FillInv(c, ts, Run(c, Init(last0), ts))
    decreases |ts|
  {
    if |ts| == 0 {
      var st := Init(last0);
      assert st.done + [st.pending] == [[]];
    } else {
      var prefix := ts[..|ts| - 1];
      NoBreaksPrefix(ts);
      RunKeepsFill(c, prefix, last0);
      RunKeepsPart(c, prefix, last0);
      RunKeepsLines(c, prefix, last0);
      StepKeepsFillAt(c, ts, Run(c, Init(last0), prefix), last0);
    }
  }

  /** Lines are filled greedily: a word `i` that opens a new line of cue `k`
      does so only because its input text would not fit behind the line
      before it, `Decode(o).width` being the given `max_line_width` (1000 when
      absent). */
  lemma {:induction false} NewLineOverflows(o: Options, segs: seq<Segment>, k: nat, i: nat)
    requires |segs| > 0 && |segs[0].words| > 0
    requires NoBreaks(AllWords(segs))
    requires k < |Cues(o, segs)| && 0 < i < |Cues(o, segs)[k]| && Breaks(Cues(o, segs)[k][i])
    ensures var cues, ws := Cues(o, segs), AllWords(segs);
      && 0 <= Offsets(cues)[k] + i < |ws|
      && |LineText(LastLine(cues[k][..i]))| + |ws[Offsets(cues)[k] + i].text| > Decode(o).width
  {
    NoBreaksStream(segs);
    var ts, cues := Stream(segs), Cues(o, segs);
    CuesOverflow(Decode(o), ts, segs[0].words[0].start, cues, k, i);
    assert ts[Offsets(cues)[k] + i].word == AllWords(segs)[Offsets(cues)[k] + i];
  }

  /** The stream carries the input words, so it holds no line break when they
      hold none. */
  lemma {:induction false} NoBreaksStream(segs: seq<Segment>)
    requires NoBreaks(AllWords(segs))
    ensures NoBreaks(Words(Stream(segs)))
  {
    var ts := Stream(segs);
    forall j | 0 <= j < |Words(ts)|
      ensures '\n' !in Words(ts)[j].text
    {
      assert Words(ts)[j] == AllWords(segs)[j];
    }
  }

  /** The yielded cues `cs` of a non-empty run are its finished cues and its
      pending one, so the invariant read at the end covers each of them. */
  lemma {:induction false} CuesOverflow(c: Config, ts: seq<Tok>, last0: int, cs: seq<seq<Word>>, k: int, i: int)
    requires |ts| > 0 && NoBreaks(Words(ts))
    requires c.preserve || c.maxCount.Some?
    requires cs == Close(Run(c, Init(last0), ts))
    requires 0 <= k < |cs| && 0 < i < |cs[k]| && Breaks(cs[k][i])
    ensures 0 <= Offsets(cs)[k] + i < |ts|
    ensures |LineText(LastLine(cs[k][..i]))| + |ts[Offsets(cs)[k] + i].word.text| > c.width
  {
    var st := Run(c, Init(last0), ts);
    RunKeepsFill(c, ts, last0);
    RunYieldsPending(c, ts, last0);
    assert Overflows(c, ts, cs, k);
  }

  /** Once the first `i` words of the cue have reached the line cap, word `i`
      only continues their last line, which is not empty. */
  ghost predicate CapKept(c: Config, cue: seq<Word>) {
    forall i :: 0 < i < |cue| && c.maxCount.Some? && |Lines(cue[..i])| >= c.maxCount.value ==>
      !Breaks(cue[i]) && |LineText(LastLine(cue[..i]))| > 0
  }

  /** Every cue so far, the pending one included, keeps the cap. */
  ghost predicate CapInv(c: Config, st: State) {
    (forall k :: 0 <= k < |st.done| ==> CapKept(c, st.done[k])) && CapKept(c, st.pending)
  }

  /** A word appended to a cue keeps the cap when, should the cue be at the
      cap already, the word continues its non-empty last line. */
  lemma {:induction false} CapSnoc(c: Config, cue: seq<Word>, o: Word)
    requires CapKept(c, cue)
    requires |cue| > 0 && c.maxCount.Some? && |Lines(cue)| >= c.maxCount.value ==>
      !Breaks(o) && |LineText(LastLine(cue))| > 0
    ensures CapKept(c, cue + [o])
  {
    var cue' := cue + [o];
    forall i | 0 < i < |cue'| && c.maxCount.Some? && |Lines(cue'[..i])| >= c.maxCount.value
      ensures !Breaks(cue'[i]) && |LineText(LastLine(cue'[..i]))| > 0
    {
      if i < |cue| {
        assert cue'[..i] == cue[..i] && cue'[i] == cue[i];
      } else {
        assert cue'[..i] == cue && cue'[i] == o;
      }
    }
  }

  /** A step that closes the pending cue opens a one-word cue, which has no
      later word. */
  lemma {:induction false} CutKeepsCap(c: Config, st: State, st': State, o: Word)
    requires CapInv(c, st)
    requires st'.done == st.done + [st.pending] && st'.pending == [o]
    ensures CapInv(c, st')
  {
    forall k | 0 <= k < |st'.done|
      ensures CapKept(c, st'.done[k])
    {
      if k < |st.done| {
        assert st'.done[k] == st.done[k];
      } else {
        assert st'.done[k] == st.pending;
      }
    }
  }

  /** The loop closes a cue at the cap rather than start a line in it or fill
      an empty line of it, so every cue keeps the cap. */
  lemma {:induction false} StepKeepsCap(c: Config, st: State, t: Tok)
    requires LineInv(c, st) && CapInv(c, st)
    requires '\n' !in t.word.text
    ensures CapInv(c, Step(c, st, t))
  {
    var st' := Step(c, st, t);
    StepShape(c, st, t);
    StepCounts(c, st, t);
    var o := LastWord(st'.pending);
    if Decide(c, st, t) == Cut {
      CutKeepsCap(c, st, st', o);
    } else {
      CapSnoc(c, st.pending, o);
    }
  }

  lemma {:induction false} RunKeepsCap(c: Config, ts: seq<Tok>, last0: int)
    requires NoBreaks(Words(ts))
    ensures CapInv(c, Run(c, Init(last0), ts))
    decreases |ts|
  {
    if |ts| > 0 {
      var prefix := ts[..|ts| - 1];
      var t := ts[|ts| - 1];
      NoBreaksPrefix(ts);
      RunKeepsCap(c, prefix, last0);
      RunKeepsLines(c, prefix, last0);
      assert Run(c, Init(last0), ts) == Step(c, Run(c, Init(last0), prefix), t);
      StepKeepsCap(c, Run(c, Init(last0), prefix), t);
    }
  }

  /** A cue that has reached `max_line_count` lines takes no word that would
      start a line or fill an empty one: from then on every word of it
      continues its current, non-empty line, and any other word opens the next
      cue. */
  lemma {:induction false} CapOnlyExtends(o: Options, segs: seq<Segment>, k: nat, i: nat)
    requires |segs| > 0 && |segs[0].words| > 0
    requires NoBreaks(AllWords(segs))
    requires o.maxLineCount.Some?
    requires k < |Cues(o, segs)| && 0 < i < |Cues(o, segs)[k]|
    requires |Lines(Cues(o, segs)[k][..i])| >= o.maxLineCount.value
    ensures var cue := Cues(o, segs)[k];
      !Breaks(cue[i]) && |LineText(LastLine(cue[..i]))| > 0
  {
    NoBreaksStream(segs);
    CuesCap(Decode(o), Stream(segs), segs[0].words[0].start, Cues(o, segs), k);
  }

  /** The yielded cues of a run are its finished cues and its pending one. */
  lemma {:induction false} CuesCap(c: Config, ts: seq<Tok>, last0: int, cs: seq<seq<Word>>, k: int)
    requires |ts| > 0 && NoBreaks(Words(ts))
    requires cs == Close(Run(c, Init(last0), ts))
    requires 0 <= k < |cs|
    ensures CapKept(c, cs[k])
  {
    var st := Run(c, Init(last0), ts);
    RunKeepsCap(c, ts, last0);
    RunYieldsPending(c, ts, last0);
    if k < |st.done| {
      assert cs[k] == st.done[k];
    }
  }
}

=== FILE: render.dfy ===
/** `SubtitlesWriter.iterate_result` from cue word lists to yielded
    `(start, end, text)` triples (subtitle_utils.py:84-114): one triple per
    cue, or in highlight mode one triple per word with that word underlined
    plus a plain filler triple over every gap; when the first segment has no
    word timings, one triple per segment. `fmt` stands for
    `format_timestamp`. */
module Render {
  import opened Wrappers
  import opened Strings
  import opened Timing
  import opened Segmentation

  /** Length of the longest whitespace prefix: what `^(\s*)` captures. */
  function LeadLen(s: string): (n: nat)
    ensures n <= |s|
    ensures AllSpace(s[..n])
    ensures n < |s| ==> !IsSpace(s[n])
    decreases |s|
  {
    if |s| > 0 && IsSpace(s[0]) then
      var m := LeadLen(s[1..]);
      assert s[..m + 1] == [s[0]] + s[1..][..m];
      m + 1
    else 0
  }

  /** `re.sub(r"^(\s*)(.*)$", r"\1<u>\2</u>", w)`. `.` does not match a line
      break and `$` also matches just before a final line break, so a break
      after the whitespace prefix either sits at the very end and stays
      outside the tags, or makes the pattern fail and leaves `w` unchanged. */
  function Underline(w: string): string {
    var n := LeadLen(w);
    var rest := w[n..];
    if '\n' !in rest then w[..n] + "<u>" + rest + "</u>"
    else if rest[|rest| - 1] == '\n' && '\n' !in rest[..|rest| - 1] then w[..n] + "<u>" + rest[..|rest| - 1] + "</u>\n"
    else w
  }

  /** After its whitespace prefix the text has no line break. */
  predicate Markable(t: string) {
    '\n' !in t[LeadLen(t)..]
  }

  /** The texts with text `i` underlined, joined (subtitle_utils.py:98-105). */
  function Emphasize(ts: seq<string>, i: int): string
    requires 0 <= i < |ts|
  {
    Concat(Marked(ts, i))
  }

  function Marked(ts: seq<string>, i: int): (r: seq<string>)
    ensures |r| == |ts|
    ensures forall j :: 0 <= j < |ts| ==> r[j] == if j == i then Underline(ts[j]) else ts[j]
  {
    seq(|ts|, j requires 0 <= j < |ts| => if j == i then Underline(ts[j]) else ts[j])
  }

  /** Exactly text `i` is marked: every other text appears verbatim, and text
      `i` appears as its whitespace prefix followed by the rest in `<u>` tags. */
  lemma {:induction false} EmphasizedLine(ts: seq<string>, i: int)
    requires 0 <= i < |ts| && Markable(ts[i])
    ensures var n := LeadLen(ts[i]);
      && ts[i] == ts[i][..n] + ts[i][n..]
      && Emphasize(ts, i) == Concat(ts[..i]) + ts[i][..n] + "<u>" + ts[i][n..] + "</u>" + Concat(ts[i + 1..])
  {
    var m := Marked(ts, i);
    var n := LeadLen(ts[i]);
    UnderlineMarkable(ts[i]);
    MarkedOthers(ts, i);
    calc {
      Emphasize(ts, i);
      Concat(m);
      { ConcatSplit(m, i); }
      Concat(m[..i]) + m[i] + Concat(m[i + 1..]);
      Concat(ts[..i]) + (ts[i][..n] + "<u>" + ts[i][n..] + "</u>") + Concat(ts[i + 1..]);
      { Regroup(Concat(ts[..i]), ts[i][..n], "<u>", ts[i][n..], "</u>", Concat(ts[i + 1..])); }
      Concat(ts[..i]) + ts[i][..n] + "<u>" + ts[i][n..] + "</u>" + Concat(ts[i + 1..]);
    }
  }

  lemma {:induction false} Regroup(a: string, x: string, y: string, z: string, w: string, b: string)
    ensures a + (x + y + z + w) + b == a + x + y + z + w + b
  {
  }

  /** A markable text is underlined behind its whitespace prefix. */
  lemma {:induction false} UnderlineMarkable(t: string)
    requires Markable(t)
    ensures Underline(t) == t[..LeadLen(t)] + "<u>" + t[LeadLen(t)..] + "</u>"
  {
  }

  /** Marking text `i` leaves the texts before and after it as they are. */
  lemma {:induction false} MarkedOthers(ts: seq<string>, i: int)
    requires 0 <= i < |ts|
    ensures Marked(ts, i)[..i] == ts[..i] && Marked(ts, i)[i + 1..] == ts[i + 1..]
  {
    var m := Marked(ts, i);
    forall j | 0 <= j < i
      ensures m[..i][j] == ts[..i][j]
    {
      assert m[j] == ts[j];
    }
    forall j | i + 1 <= j < |ts|
      ensures m[j] == ts[j]
    {
      assert j != i;
    }
    assert m[i + 1..] == ts[i + 1..];
  }

  /** One cue in plain mode: first word's start, last word's end, the joined
      text (subtitle_utils.py:86-88, 108). */
  function PlainCue(fmt: int -> string, ws: seq<Word>): Cue
    requires |ws| > 0
  {
    Cue(fmt(ws[0].start), fmt(ws[|ws| - 1].end), CueText(ws))
  }

  /** Word `i`'s own triple in highlight mode: its range, with it underlined. */
  function WordCue(fmt: int -> string, ws: seq<Word>, i: int): Cue
    requires 0 <= i < |ws|
  {
    Cue(fmt(ws[i].start), fmt(ws[i].end), Emphasize(Texts(ws), i))
  }

  function WordCues(fmt: int -> string, ws: seq<Word>): (r: seq<Cue>)
    ensures |r| == |ws|
    ensures forall i :: 0 <= i < |ws| ==> r[i] == WordCue(fmt, ws, i)
  {
    seq(|ws|, i requires 0 <= i < |ws| => WordCue(fmt, ws, i))
  }

  /** The highlight loop from word `i` on, over the words' own triples
      `slots`, with `plain` the cue text and `last` the end of what was
      yielded so far: a filler from `last` when the word starts elsewhere,
      then the word's triple (subtitle_utils.py:89-106). */
  function HighlightFrom(slots: seq<Cue>, plain: string, i: nat, last: string): (r: seq<Cue>)
    requires i <= |slots|
    ensures |r| >= |slots| - i
    ensures i < |slots| ==> r[0].start == last && r[|r| - 1].end == slots[|slots| - 1].end
    ensures Chained(r)
    decreases |slots| - i
  {
    if i == |slots| then []
    else
      var gap := if last != slots[i].start then [Cue(last, slots[i].start, plain)] else [];
      var rest := HighlightFrom(slots, plain, i + 1, slots[i].end);
      gap + [slots[i]] + rest
  }

  /** Each yielded range ends where the next begins. */
  predicate Chained(r: seq<Cue>) {
    forall k :: 0 < k < |r| ==> r[k - 1].end == r[k].start
  }

  /** The triples of one cue in highlight mode. They cover the cue without
      holes, from its first word's start to its last word's end, with at
      least one triple per word. */
  function HighlightCue(fmt: int -> string, ws: seq<Word>): (r: seq<Cue>)
    requires |ws| > 0
    ensures Chained(r) && |r| >= |ws|
    ensures r[0] == WordCue(fmt, ws, 0) && r[|r| - 1].end == fmt(ws[|ws| - 1].end)
  {
    var slots := WordCues(fmt, ws);
    HighlightEnds(slots, CueText(ws));
    HighlightFrom(slots, CueText(ws), 0, slots[0].start)
  }

  /** The loop opens with the first word's own triple and closes at the end
      of the last word's. */
  lemma {:induction false} HighlightEnds(slots: seq<Cue>, plain: string)
    requires |slots| > 0
    ensures var r := HighlightFrom(slots, plain, 0, slots[0].start);
      |r| > 0 && r[0] == slots[0] && r[|r| - 1].end == slots[|slots| - 1].end
  {
    var r := HighlightFrom(slots, plain, 0, slots[0].start);
    assert r == [slots[0]] + HighlightFrom(slots, plain, 1, slots[0].end);
  }

  /** Every triple ends where the next one starts. */
  predicate Contiguous(slots: seq<Cue>) {
    forall i :: 0 < i < |slots| ==> slots[i - 1].end == slots[i].start
  }

  /** Reference for highlight mode, without loop state: word `i` contributes a
      filler over the gap before it, when the previous word ends elsewhere,
      and then its own triple. */
  function SlotCues(slots: seq<Cue>, plain: string, i: int): seq<Cue>
    requires 0 <= i < |slots|
  {
    (if i > 0 && slots[i - 1].end != slots[i].start then [Cue(slots[i - 1].end, slots[i].start, plain)] else [])
    + [slots[i]]
  }

  function HighlightSpec(slots: seq<Cue>, plain: string, i: nat): seq<Cue>
    requires i <= |slots|
    decreases |slots| - i
  {
    if i == |slots| then [] else SlotCues(slots, plain, i) + HighlightSpec(slots, plain, i + 1)
  }

  /** The loop yields exactly the reference triples. */
  lemma {:induction false} HighlightIsSpec(slots: seq<Cue>, plain: string, i: nat)
    requires i < |slots|
    ensures HighlightFrom(slots, plain, i, if i == 0 then slots[0].start else slots[i - 1].end) == HighlightSpec(slots, plain, i)
    decreases |slots| - i
  {
    if i + 1 < |slots| {
      HighlightIsSpec(slots, plain, i + 1);
    }
  }

  /** Without gaps the reference yields exactly the words' own triples. */
  lemma {:induction false} SpecContiguous(slots: seq<Cue>, plain: string, i: nat)
    requires i <= |slots| && Contiguous(slots)
    ensures HighlightSpec(slots, plain, i) == slots[i..]
    decreases |slots| - i
  {
    if i < |slots| {
      SpecContiguous(slots, plain, i + 1);
      assert slots[i..] == [slots[i]] + slots[i + 1..];
    }
  }

  lemma {:induction false} SpecGrows(slots: seq<Cue>, plain: string, j: nat, i: int)
    requires j <= i < |slots| && 0 < i && slots[i - 1].end != slots[i].start
    ensures |HighlightSpec(slots, plain, j)| > |slots| - j
    decreases |slots| - j
  {
    SpecLength(slots, plain, j + 1);
    if j < i {
      SpecGrows(slots, plain, j + 1, i);
    }
  }

  lemma {:induction false} SpecLength(slots: seq<Cue>, plain: string, j: nat)
    requires j <= |slots|
    ensures |HighlightSpec(slots, plain, j)| >= |slots| - j
    decreases |slots| - j
  {
    if j < |slots| {
      SpecLength(slots, plain, j + 1);
    }
  }

  /** The formatted end of every word equals the formatted start of the next. */
  predicate WordsContiguous(fmt: int -> string, ws: seq<Word>) {
    forall i :: 0 < i < |ws| ==> fmt(ws[i - 1].end) == fmt(ws[i].start)
  }

  /** With contiguous words there are no fillers: one triple per word, word
      `i`'s range with word `i` marked. */
  lemma {:induction false} HighlightContiguous(fmt: int -> string, ws: seq<Word>)
    requires |ws| > 0 && WordsContiguous(fmt, ws)
    ensures HighlightCue(fmt, ws) == WordCues(fmt, ws)
  {
    var slots := WordCues(fmt, ws);
    SlotsContiguous(fmt, ws);
    HighlightIsSpec(slots, CueText(ws), 0);
    SpecContiguous(slots, CueText(ws), 0);
    assert slots[0..] == slots;
  }

  lemma {:induction false} SlotsContiguous(fmt: int -> string, ws: seq<Word>)
    ensures Contiguous(WordCues(fmt, ws)) <==> WordsContiguous(fmt, ws)
  {
    var slots := WordCues(fmt, ws);
    assert forall i :: 0 <= i < |ws| ==> slots[i].start == fmt(ws[i].start) && slots[i].end == fmt(ws[i].end);
  }

  /** Any gap between formatted times adds a filler, so the triples
      outnumber the words exactly when the words are not contiguous. */
  lemma {:induction false} HighlightCountsGaps(fmt: int -> string, ws: seq<Word>)
    requires |ws| > 0
    ensures |HighlightCue(fmt, ws)| == |ws| <==> WordsContiguous(fmt, ws)
  {
    var slots := WordCues(fmt, ws);
    HighlightIsSpec(slots, CueText(ws), 0);
    SlotsContiguous(fmt, ws);
    SpecCountsGaps(slots, CueText(ws));
  }

  lemma {:induction false} SpecCountsGaps(slots: seq<Cue>, plain: string)
    ensures |HighlightSpec(slots, plain, 0)| == |slots| <==> Contiguous(slots)
  {
    if Contiguous(slots) {
      SpecContiguous(slots, plain, 0);
      assert |slots[0..]| == |slots|;
    } else {
      var i :| 0 < i < |slots| && slots[i - 1].end != slots[i].start;
      SpecGrows(slots, plain, 0, i);
    }
  }

  /** The triples for one cue. */
  function CueTriples(fmt: int -> string, ws: seq<Word>, highlight: bool): seq<Cue>
    requires |ws| > 0
  {
    if highlight then HighlightCue(fmt, ws) else [PlainCue(fmt, ws)]
  }

  /** The triples for all cues, in order. */
  function Triples(fmt: int -> string, cs: seq<seq<Word>>, highlight: bool): seq<Cue>
    requires forall k :: 0 <= k < |cs| ==> |cs[k]| > 0
    decreases |cs|
  {
    if |cs| == 0 then []
    else Triples(fmt, cs[..|cs| - 1], highlight) + CueTriples(fmt, cs[|cs| - 1], highlight)
  }

  /** In plain mode there is one triple per cue, its own. */
  lemma {:induction false} PlainTriples(fmt: int -> string, cs: seq<seq<Word>>)
    requires forall k :: 0 <= k < |cs| ==> |cs[k]| > 0
    ensures |Triples(fmt, cs, false)| == |cs|
    ensures forall k :: 0 <= k < |cs| ==> Triples(fmt, cs, false)[k] == PlainCue(fmt, cs[k])
    decreases |cs|
  {
    if |cs| > 0 {
      PlainTriples(fmt, cs[..|cs| - 1]);
    }
  }

  /** One triple per segment, from the segment's own times and its stripped
      text with `-->` shortened (subtitle_utils.py:110-114). */
  function FallbackCue(fmt: int -> string, s: Segment): (c: Cue)
    ensures c.start == fmt(s.start) && c.end == fmt(s.end)
    ensures |c.text| <= |Strip(s.text)|
    ensures c.text == Strip(s.text) <==> !HasArrow(Strip(s.text))
  {
    Cue(fmt(s.start), fmt(s.end), ReplaceArrow(Strip(s.text)))
  }

  /** The fallback text shortens the segment's first `-->` to `->`, keeps
      the text before it, and treats the rest the same way. */
  lemma {:induction false} FallbackReplacesArrow(fmt: int -> string, s: Segment, p: string, q: string)
    requires Strip(s.text) == p + "-->" + q && !HasArrow(p)
    ensures FallbackCue(fmt, s).text == p + "->" + ReplaceArrow(q)
  {
    ReplaceArrowFirst(p, q);
  }

  /** A segment reading `a-->b` is shown as `a->b`. */
  lemma {:induction false} FallbackArrowExample(fmt: int -> string)
    ensures FallbackCue(fmt, Segment([], 0, 1000, "a-->b")).text == "a->b"
  {
    assert !HasArrow("a");
    assert !HasArrow("b");
    assert Strip("a-->b") == "a-->b" by {
      StripNoEdge("a-->b");
    }
    FallbackReplacesArrow(fmt, Segment([], 0, 1000, "a-->b"), "a", "b");
  }

  function Fallback(fmt: int -> string, segs: seq<Segment>): (r: seq<Cue>)
    ensures |r| == |segs|
    ensures forall k :: 0 <= k < |segs| ==> r[k] == FallbackCue(fmt, segs[k])
  {
    seq(|segs|, k requires 0 <= k < |segs| => FallbackCue(fmt, segs[k]))
  }

  /** `iterate_result`: `None` where the source raises `IndexError` on an
      empty segment list; word mode when the first segment has word timings;
      the per-segment fallback otherwise. */
  function IterateResult(fmt: int -> string, segs: seq<Segment>, o: Options): (r: Option<seq<Cue>>)
    ensures r.None? <==> |segs| == 0
    ensures r.Some? && |segs[0].words| == 0 ==> |r.value| == |segs| && forall k :: 0 <= k < |segs| ==> r.value[k] == FallbackCue(fmt, segs[k])
    ensures r.Some? && |segs[0].words| > 0 && !o.highlightWords ==> |r.value| == |Cues(o, segs)|
    ensures r.Some? && |segs[0].words| > 0 && o.highlightWords ==> |r.value| >= |AllWords(segs)|
  {
    if |segs| == 0 then None
    else if |segs[0].words| == 0 then Some(Fallback(fmt, segs))
    else
      var cs := Cues(o, segs);
      if o.highlightWords then
        HighlightWordCount(fmt, cs);
        Some(Triples(fmt, cs, true))
      else
        PlainTriples(fmt, cs);
        Some(Triples(fmt, cs, false))
  }

  /** Highlight mode yields at least one triple per word. */
  lemma {:induction false} HighlightWordCount(fmt: int -> string, cs: seq<seq<Word>>)
    requires forall k :: 0 <= k < |cs| ==> |cs[k]| > 0
    ensures |Triples(fmt, cs, true)| >= |Flatten(cs)|
    decreases |cs|
  {
    if |cs| > 0 {
      var init := cs[..|cs| - 1];
      HighlightWordCount(fmt, init);
      assert Flatten(cs) == Flatten(init) + cs[|cs| - 1];
    }
  }

  /** A cue word made from a word without line breaks can be underlined:
      the only possible break is the one in front of a new line, which the
      whitespace prefix takes. */
  lemma {:induction false} RelMarkable(w: Word, o: Word)
    requires Rel(w, o) && '\n' !in w.text
    ensures Markable(o.text)
  {
    var s := Strip(w.text);
    StripIsTrim(w.text);
    var i, j :| TrimAt(w.text, s, i, j);
    assert forall k :: 0 <= k < |s| ==> s[k] == w.text[i + k];
    assert '\n' !in s;
    if o.text == "\n" + s {
      assert o.text[1..] == s;
      assert LeadLen(o.text) == 1 + LeadLen(s);
      assert o.text[LeadLen(o.text)..] == s[LeadLen(s)..];
    }
  }

  /** In highlight mode, the triple for word `i` of cue `k` shows the cue's
      other words verbatim and word `i` with everything after its leading
      whitespace between `<u>` and `</u>` (subtitle_utils.py:98-105). */
  lemma {:induction false} HighlightUnderlinesWord(o: Options, segs: seq<Segment>, k: int, i: int)
    requires |segs| > 0 && |segs[0].words| > 0 && NoBreaks(AllWords(segs))
    requires 0 <= k < |Cues(o, segs)| && 0 <= i < |Cues(o, segs)[k]|
    ensures var ts := Texts(Cues(o, segs)[k]); var n := LeadLen(ts[i]);
      && ts[i] == ts[i][..n] + ts[i][n..]
      && Emphasize(ts, i) == Concat(ts[..i]) + ts[i][..n] + "<u>" + ts[i][n..] + "</u>" + Concat(ts[i + 1..])
  {
    var cues := Cues(o, segs);
    FlattenAt(cues, k, i);
    var p := Offsets(cues)[k] + i;
    RelMarkable(AllWords(segs)[p], cues[k][i]);
    EmphasizedLine(Texts(cues[k]), i);
  }

  /** Reference for highlight mode over all cues: each cue's stateless
      triples, in cue order. */
  function SpecTriples(fmt: int -> string, cs: seq<seq<Word>>): seq<Cue>
    requires forall k :: 0 <= k < |cs| ==> |cs[k]| > 0
    decreases |cs|
  {
    if |cs| == 0 then []
    else
      var ws := cs[|cs| - 1];
      SpecTriples(fmt, cs[..|cs| - 1]) + HighlightSpec(WordCues(fmt, ws), CueText(ws), 0)
  }

  /** The highlight loop, run cue after cue, yields the reference triples. */
  lemma {:induction false} HighlightTriplesAreSpec(fmt: int -> string, cs: seq<seq<Word>>)
    requires forall k :: 0 <= k < |cs| ==> |cs[k]| > 0
    ensures Triples(fmt, cs, true) == SpecTriples(fmt, cs)
    decreases |cs|
  {
    if |cs| > 0 {
      var ws := cs[|cs| - 1];
      HighlightTriplesAreSpec(fmt, cs[..|cs| - 1]);
      HighlightIsSpec(WordCues(fmt, ws), CueText(ws), 0);
    }
  }

  /** With word timings, plain mode yields cue `k`'s own triple at position
      `k`, and highlight mode yields, cue after cue, a filler over each gap
      between formatted word times followed by each word's own triple. */
  lemma {:induction false} WordMode(fmt: int -> string, o: Options, segs: seq<Segment>)
    requires |segs| > 0 && |segs[0].words| > 0
    ensures var cues, r := Cues(o, segs), IterateResult(fmt, segs, o);
      && r.Some?
      && (!o.highlightWords ==> |r.value| == |cues| && forall k :: 0 <= k < |cues| ==> r.value[k] == PlainCue(fmt, cues[k]))
      && (o.highlightWords ==> r.value == SpecTriples(fmt, cues))
  {
    var cues := Cues(o, segs);
    if o.highlightWords {
      HighlightTriplesAreSpec(fmt, cues);
    } else {
      PlainTriples(fmt, cues);
    }
  }

  /** Triple `k` of `r` spans cue `k`, whose words sit in `ws` from the
      cue's offset on: from its first word's start to its last word's end,
      showing the cue's text. */
  predicate SpansCues(fmt: int -> string, ws: seq<Word>, cues: seq<seq<Word>>, r: seq<Cue>) {
    && |r| == |cues|
    && forall k :: 0 <= k < |cues| ==>
      && |cues[k]| > 0 && 0 <= Offsets(cues)[k] && Offsets(cues)[k] + |cues[k]| <= |ws|
      && r[k] == Cue(fmt(ws[Offsets(cues)[k]].start), fmt(ws[Offsets(cues)[k] + |cues[k]| - 1].end), CueText(cues[k]))
  }

  /** In plain mode there is one triple per cue, running from the input start
      of the cue's first word to the input end of its last word. */
  lemma {:induction false} PlainCueTimes(fmt: int -> string, o: Options, segs: seq<Segment>)
    requires |segs| > 0 && |segs[0].words| > 0 && !o.highlightWords
    ensures SpansCues(fmt, AllWords(segs), Cues(o, segs), IterateResult(fmt, segs, o).value)
  {
    assert IterateResult(fmt, segs, o).value == Triples(fmt, Cues(o, segs), false);
    PlainTriplesAt(fmt, AllWords(segs), Cues(o, segs));
  }

  lemma {:induction false} PlainTriplesAt(fmt: int -> string, ws: seq<Word>, cues: seq<seq<Word>>)
    requires Matches(ws, Flatten(cues)) && forall k :: 0 <= k < |cues| ==> |cues[k]| > 0
    ensures SpansCues(fmt, ws, cues, Triples(fmt, cues, false))
  {
    var r := Triples(fmt, cues, false);
    PlainTriples(fmt, cues);
    forall k | 0 <= k < |cues|
      ensures 0 <= Offsets(cues)[k] && Offsets(cues)[k] + |cues[k]| <= |ws|
      ensures r[k] == Cue(fmt(ws[Offsets(cues)[k]].start), fmt(ws[Offsets(cues)[k] + |cues[k]| - 1].end), CueText(cues[k]))
    {
      PlainCueAt(fmt, ws, cues, k);
    }
  }

  lemma {:induction false} PlainCueAt(fmt: int -> string, ws: seq<Word>, cues: seq<seq<Word>>, k: int)
    requires Matches(ws, Flatten(cues)) && 0 <= k < |cues| && |cues[k]| > 0
    ensures 0 <= Offsets(cues)[k] && Offsets(cues)[k] + |cues[k]| <= |ws|
    ensures PlainCue(fmt, cues[k]) == Cue(fmt(ws[Offsets(cues)[k]].start), fmt(ws[Offsets(cues)[k] + |cues[k]| - 1].end), CueText(cues[k]))
  {
    FlattenAt(cues, k, 0);
    FlattenAt(cues, k, |cues[k]| - 1);
  }
}

=== FILE: requests.dfy ===
/** The request-side checks and names of the web handlers: which uploads
    are accepted (app_utils.py:6-11, app.py:121), where a download is stored
    (app.py:61), and where the subtitles for it are written and served
    (app.py:108, 112). */
module Requests {
  import opened Wrappers
  import opened Strings
  import opened Transcript

  /** `ALLOWED_EXTENSIONS`. */
  const AllowedExtensions: set<string> := {"mp3", "m4a", "mp4", "mov"}

  /** `allowed_extension`: the name has a `.` and the text after the last
      one, lower-cased, is an accepted extension. */
  predicate AllowedExtension(filename: string) {
    '.' in filename && Lower(AfterLast(filename, '.')) in AllowedExtensions
  }

  /** Every accepted extension is three characters, starting with `m`,
      without a path separator. */
  lemma {:induction false} AcceptedShape(e: string)
    requires e in AllowedExtensions
    ensures |e| == 3 && e[0] == 'm' && '/' !in e
  {
    if e == "mp3" {
    } else if e == "m4a" {
    } else if e == "mp4" {
    } else {
      assert e == "mov";
    }
  }

  /** Only the text after the last `.` counts, in any case; a name without
      a `.` is refused. */
  lemma {:induction false} AllowedExtensionOf(stem: string, ext: string)
    requires '.' !in ext
    ensures AllowedExtension(stem + "." + ext) <==> Lower(ext) in AllowedExtensions
    ensures '.' !in stem ==> !AllowedExtension(stem)
  {
    assert stem + "." + ext == stem + ['.'] + ext;
    SplitLastOf(stem, '.', ext);
  }

  /** Double extensions count by their last part, and case does not matter. */
  lemma {:induction false} AllowedLastPart()
    ensures AllowedExtension("a.tar.mp3")
  {
    assert Lower("mp3") == "mp3";
    assert "a.tar.mp3" == "a.tar" + "." + "mp3";
    AllowedExtensionOf("a.tar", "mp3");
  }

  lemma {:induction false} RefusedLastPart()
    ensures !AllowedExtension("x.mp3.wav")
  {
    assert Lower("wav") == "wav";
    assert "x.mp3.wav" == "x.mp3" + "." + "wav";
    AllowedExtensionOf("x.mp3", "wav");
    if "wav" in AllowedExtensions {
      AcceptedShape("wav");
    }
  }

  /** The case of the extension never matters: a name is accepted exactly
      when its lower-cased spelling is. */
  lemma {:induction false} AllowedAnyCase(stem: string, ext: string)
    requires '.' !in ext
    ensures AllowedExtension(stem + "." + ext) <==> AllowedExtension(stem + "." + Lower(ext))
  {
    var low := Lower(ext);
    forall k | 0 <= k < |low|
      ensures low[k] != '.' && LowerChar(low[k]) == low[k]
    {
      assert low[k] == LowerChar(ext[k]) && ext[k] != '.';
    }
    assert Lower(low) == low;
    AllowedExtensionOf(stem, ext);
    AllowedExtensionOf(stem, low);
  }

  /** A trailing dot leaves an empty extension, which is refused, and so is
      a bare extension without a dot. */
  lemma {:induction false} RefusedNames()
    ensures !AllowedExtension("a.")
    ensures !AllowedExtension("mp3")
  {
    AllowedExtensionOf("a", "");
    AllowedExtensionOf("mp3", "");
  }

  /** The check of app.py:121: a `.` and exactly `vtt` after the last one. */
  predicate IsVttFile(file: string) {
    '.' in file && AfterLast(file, '.') == "vtt"
  }

  /** The check is case-sensitive, unlike `allowed_extension`, and every
      translated file passes it. */
  lemma {:induction false} VttCheck(stem: string, ext: string, file: string, lang: string)
    requires '.' !in ext
    ensures IsVttFile(stem + "." + ext) <==> ext == "vtt"
    ensures !IsVttFile("a.VTT") && IsVttFile("a.vtt")
    ensures IsVttFile(DstFilename(file, lang))
  {
    assert stem + "." + ext == stem + ['.'] + ext;
    SplitLastOf(stem, '.', ext);
    SplitLastOf("a", '.', "VTT");
    assert "a.VTT" == "a" + ['.'] + "VTT";
    SplitLastOf("a", '.', "vtt");
    assert "a.vtt" == "a" + ['.'] + "vtt";
    var d := DstFilename(file, lang);
    assert '.' in d by {
      assert d[|d| - 4] == '.';
    }
  }

  /** `s.split(c)`: the pieces between the occurrences of `c`. Joining them
      back with `c` gives `s`, and no piece holds `c`. */
  function SplitOn(s: string, c: char): (parts: seq<string>)
    ensures |parts| >= 1
    ensures forall i :: 0 <= i < |parts| ==> c !in parts[i]
    ensures JoinOn(parts, c) == s
    decreases |s|
  {
    match LastIndex(s, c)
    case None => [s]
    case Some(k) =>
      var init := SplitOn(s[..k], c);
      assert s == s[..k] + [c] + s[k + 1..];
      assert (init + [s[k + 1..]])[..|init|] == init;
      init + [s[k + 1..]]
  }

  /** What the subtitles file name ends in. */
  const Suffix: string := "-subtitles.vtt"

  lemma {:induction false} SuffixNoSlash(stem: string)
    requires '/' !in stem
    ensures '/' !in stem + Suffix
  {
    assert forall i :: 0 <= i < |Suffix| ==> Suffix[i] != '/';
  }

  /** `subtitles_src` (app.py:108): the path with its last `.`-piece dropped,
      then `-subtitles.vtt`. */
  function SubtitlesSrc(path: string): string {
    var parts := SplitOn(path, '.');
    JoinOn(parts[..|parts| - 1], '.') + Suffix
  }

  /** The path up to its last `.`, or nothing at all when it has none. */
  lemma {:induction false} SubtitlesSrcStem(path: string)
    ensures '.' in path ==> SubtitlesSrc(path) == BeforeLast(path, '.') + Suffix
    ensures '.' !in path ==> SubtitlesSrc(path) == Suffix
  {
    var parts := SplitOn(path, '.');
    match LastIndex(path, '.')
    case None =>
      assert parts == [path];
      assert parts[..0] == [];
    case Some(k) =>
      assert parts[..|parts| - 1] == SplitOn(path[..k], '.');
  }

  /** `os.path.join(a, b)`: `b` alone when it is absolute, otherwise `b`
      after `a` and a separator unless `a` is empty or already ends in one. */
  function PathJoin(a: string, b: string): string {
    if |b| > 0 && b[0] == '/' then b
    else if a == "" || a[|a| - 1] == '/' then a + b
    else a + "/" + b
  }

  /** A relative name is appended to the directory prefix, which is empty
      or ends in a separator. */
  lemma {:induction false} PathJoinPrefix(a: string, b: string)
    requires '/' !in b
    ensures PathJoin(a, b) == PathJoin(a, "") + b
    ensures PathJoin(a, "") == "" || PathJoin(a, "")[|PathJoin(a, "")| - 1] == '/'
  {
    if |b| > 0 {
      assert b[0] in b;
    }
  }

  /** Where a download is stored (app.py:61): the upload folder joined with
      the URL's last `/`-piece. */
  function UploadFilename(folder: string, file: string): (path: string)
    ensures path == PathJoin(folder, "") + AfterLast(file, '/')
  {
    PathJoinPrefix(folder, AfterLast(file, '/'));
    PathJoin(folder, AfterLast(file, '/'))
  }

  /** An accepted name has a `.`, and its extension holds no path
      separator, since lower-casing does not remove one. */
  lemma {:induction false} AcceptedHasNoSlash(file: string)
    requires AllowedExtension(file)
    ensures '.' in file && '/' !in AfterLast(file, '.')
  {
    var ext := AfterLast(file, '.');
    var e := Lower(ext);
    AcceptedShape(e);
    forall i | 0 <= i < |ext|
      ensures ext[i] != '/'
    {
      assert e[i] == LowerChar(ext[i]);
    }
  }

  /** When the extension holds no `/`, it is also the extension of the
      URL's last `/`-piece, and that piece has a `.`. */
  lemma {:induction false} ExtensionInBase(file: string)
    requires '.' in file && '/' !in AfterLast(file, '.')
    ensures '.' in AfterLast(file, '/')
    ensures AfterLast(AfterLast(file, '/'), '.') == AfterLast(file, '.')
  {
    var stem, ext := BeforeLast(file, '.'), AfterLast(file, '.');
    var head := AfterLast(stem, '/');
    calc {
      AfterLast(file, '/');
      AfterLast(stem + ['.'] + ext, '/');
      { AfterLastSkip(stem, '.', ext, '/'); }
      head + ['.'] + ext;
    }
    SplitLastOf(head, '.', ext);
  }

  /** The subtitles of `dir + stem + "." + ext` are named `dir + stem` with
      the suffix. */
  lemma {:induction false} SubtitlesSrcOf(dir: string, stem: string, ext: string)
    requires '.' !in ext
    ensures SubtitlesSrc(dir + stem + ['.'] + ext) == dir + stem + Suffix
  {
    SplitLastOf(dir + stem, '.', ext);
    SubtitlesSrcStem(dir + stem + ['.'] + ext);
  }

  /** A file under a directory prefix is served by its name alone. */
  lemma {:induction false} ServedByName(server: string, dir: string, name: string)
    requires '/' !in name
    requires dir == "" || dir[|dir| - 1] == '/'
    ensures PublicUrl(server, dir + name) == server + "/upload_files/" + name
  {
    if dir != "" {
      assert dir + name == dir[..|dir| - 1] + ['/'] + name;
      SplitLastOf(dir[..|dir| - 1], '/', name);
    }
  }

  lemma {:induction false} UrlOf(server: string, dir: string, stem: string, suffix: string)
    requires '/' !in stem + suffix
    requires dir == "" || dir[|dir| - 1] == '/'
    ensures PublicUrl(server, dir + stem + suffix) == server + "/upload_files/" + stem + suffix
  {
    var name := stem + suffix;
    var mount := server + "/upload_files/";
    calc {
      PublicUrl(server, dir + stem + suffix);
      { assert dir + stem + suffix == dir + name; }
      PublicUrl(server, dir + name);
      { ServedByName(server, dir, name); }
      mount + name;
      { assert mount + (stem + suffix) == mount + stem + suffix; }
      mount + stem + suffix;
    }
  }

  /** For a stored file `stem.ext` under any directory prefix (the joined
      name, or the absolute path the download returns), the subtitles are
      `stem-subtitles.vtt` in the same directory, and the URL serves that
      name. */
  lemma {:induction false} StoredSubtitles(server: string, dir: string, stem: string, ext: string)
    requires '.' !in ext && '/' !in stem
    requires dir == "" || dir[|dir| - 1] == '/'
    ensures SubtitlesSrc(dir + stem + ['.'] + ext) == dir + stem + Suffix
    ensures PublicUrl(server, SubtitlesSrc(dir + stem + ['.'] + ext)) == server + "/upload_files/" + stem + Suffix
  {
    SubtitlesSrcOf(dir, stem, ext);
    SuffixNoSlash(stem);
    UrlOf(server, dir, stem, Suffix);
  }

  /** A piece of a string without `d` has no `d` either. */
  lemma {:induction false} BeforeLastKeepsAbsence(s: string, c: char, d: char)
    requires d !in s
    ensures d !in BeforeLast(s, c)
  {
    var r := BeforeLast(s, c);
    if c in s {
      assert forall i :: 0 <= i < |r| ==> r[i] == s[i];
    }
  }

  /** When the URL's last piece is `stem.ext`, the download is stored as
      the directory prefix followed by `stem.ext`. */
  lemma {:induction false} StoredAs(folder: string, file: string, stem: string, ext: string)
    requires AfterLast(file, '/') == stem + ['.'] + ext
    ensures UploadFilename(folder, file) == PathJoin(folder, "") + stem + ['.'] + ext
  {
    calc {
      UploadFilename(folder, file);
      PathJoin(folder, "") + (stem + ['.'] + ext);
      PathJoin(folder, "") + stem + ['.'] + ext;
    }
  }

  /** The subtitles of a download whose extension holds no `/` are
      written next to it, named after the URL's last piece without the
      extension, and the returned URL serves exactly that file. */
  lemma {:induction false} SubtitlesBeside(server: string, folder: string, file: string)
    requires '.' in file && '/' !in AfterLast(file, '.')
    ensures var base := AfterLast(file, '/');
      && '.' in base
      && SubtitlesSrc(UploadFilename(folder, file)) == PathJoin(folder, BeforeLast(base, '.')) + Suffix
      && PublicUrl(server, SubtitlesSrc(UploadFilename(folder, file)))
         == server + "/upload_files/" + BeforeLast(base, '.') + Suffix
  {
    ExtensionInBase(file);
    var base := AfterLast(file, '/');
    var stem, ext := BeforeLast(base, '.'), AfterLast(base, '.');
    var dir := PathJoin(folder, "");
    BeforeLastKeepsAbsence(base, '.', '/');
    PathJoinPrefix(folder, stem);
    var stored := dir + stem + ['.'] + ext;
    calc {
      SubtitlesSrc(UploadFilename(folder, file));
      { StoredAs(folder, file, stem, ext); }
      SubtitlesSrc(stored);
      { StoredSubtitles(server, dir, stem, ext); }
      dir + stem + Suffix;
      PathJoin(folder, stem) + Suffix;
    }
    calc {
      PublicUrl(server, SubtitlesSrc(UploadFilename(folder, file)));
      { StoredAs(folder, file, stem, ext); }
      PublicUrl(server, SubtitlesSrc(stored));
      { StoredSubtitles(server, dir, stem, ext); }
      server + "/upload_files/" + stem + Suffix;
    }
  }

  /** End to end: every accepted upload is such a download. */
  lemma {:induction false} SubtitlesLink(server: string, folder: string, file: string)
    requires AllowedExtension(file)
    ensures var base := AfterLast(file, '/');
      && '.' in base
      && SubtitlesSrc(UploadFilename(folder, file)) == PathJoin(folder, BeforeLast(base, '.')) + Suffix
      && PublicUrl(server, SubtitlesSrc(UploadFilename(folder, file)))
         == server + "/upload_files/" + BeforeLast(base, '.') + Suffix
  {
    AcceptedHasNoSlash(file);
    SubtitlesBeside(server, folder, file);
  }
}

=== FILE: segmentation.dfy ===
/** The cue segmentation of `SubtitlesWriter.iterate_result`: a fold over the
    words of all segments that decides, word by word, whether the word
    continues the current line, starts a new line of the same cue, or closes
    the cue and opens the next one (subtitle_utils.py:38-82). */
module Segmentation {
  import opened Wrappers
  import opened Strings
  import opened Timing

  /** The long-pause threshold, 3.0 seconds. */
  const PauseLimit: int := 3000

  /** The line width used when `max_line_width` is not given. */
  const DefaultWidth: int := 1000

  /** The options as the fold reads them: the effective width, the line-count
      cap, and whether cues keep to segment boundaries. */
  datatype Config = Config(width: int, maxCount: Option<int>, preserve: bool)

  function Decode(o: Options): Config {
    Config(
      if o.maxLineWidth.None? then DefaultWidth else o.maxLineWidth.value,
      o.maxLineCount,
      o.maxLineCount.None? || o.maxLineWidth.None?)
  }

  /** A word of the stream, flagged when it is the first of its segment. */
  datatype Tok = Tok(word: Word, first: bool)

  function Tokens(ws: seq<Word>): (r: seq<Tok>)
    ensures |r| == |ws|
    ensures forall i :: 0 <= i < |ws| ==> r[i] == Tok(ws[i], i == 0)
  {
    seq(|ws|, i requires 0 <= i < |ws| => Tok(ws[i], i == 0))
  }

  /** The nested loop over segments and their words, as one stream. */
  function Stream(segs: seq<Segment>): (r: seq<Tok>)
    ensures |r| == |AllWords(segs)|
    ensures forall i :: 0 <= i < |r| ==> r[i].word == AllWords(segs)[i]
    decreases |segs|
  {
    if |segs| == 0 then [] else Tokens(segs[0].words) + Stream(segs[1..])
  }

  function Words(ts: seq<Tok>): (r: seq<Word>)
    ensures |r| == |ts|
    ensures forall i :: 0 <= i < |ts| ==> r[i] == ts[i].word
  {
    seq(|ts|, i requires 0 <= i < |ts| => ts[i].word)
  }

  /** The loop state: current line length, lines in the pending cue, the
      finished cues, the pending cue, and the previous word's start. */
  datatype State = State(lineLen: int, lineCount: int, done: seq<seq<Word>>, pending: seq<Word>, last: int)

  function Init(last: int): State {
    State(0, 1, [], [], last)
  }

  /** What the loop does with a word: continue the line, close the cue and
      open the next, start a new line behind a line break, or fill a line
      that is still empty. */
  datatype Action = Extend | Cut | NewLine | Fill

  /** The decision of subtitle_utils.py:55-76. */
  function Decide(c: Config, st: State, t: Tok): (a: Action)
    ensures a == Cut ==> |st.pending| > 0
    ensures a == Extend ==> st.lineLen > 0 && st.lineLen + |t.word.text| <= c.width
    ensures a == NewLine ==> st.lineLen > 0
    ensures a == NewLine && c.maxCount.Some? && |st.pending| > 0 ==> st.lineCount < c.maxCount.value
    ensures a == Fill ==> st.lineLen <= 0
    ensures t.first && c.preserve && |st.pending| > 0 ==> a == Cut
    ensures !c.preserve && c.maxCount.Some? && |st.pending| > 0 && t.word.start - st.last > PauseLimit ==> a == Cut
    ensures a == Cut ==>
      || (c.preserve && t.first)
      || (c.maxCount.Some? && ((!c.preserve && t.word.start - st.last > PauseLimit) || st.lineCount >= c.maxCount.value))
    ensures && st.lineLen > 0 && st.lineLen + |t.word.text| <= c.width
            && !(t.first && c.preserve && |st.pending| > 0)
            && !(!c.preserve && t.word.start - st.last > PauseLimit)
            ==> a == Extend
    ensures a == NewLine && (c.preserve || c.maxCount.Some?) && |st.pending| > 0 ==> st.lineLen + |t.word.text| > c.width
    ensures |st.pending| > 0 && c.maxCount.Some? && st.lineCount >= c.maxCount.value && a != Extend ==> a == Cut
  {
    var w := t.word;
    var longPause := !c.preserve && w.start - st.last > PauseLimit;
    var hasRoom := st.lineLen + |w.text| <= c.width;
    var segBreak := t.first && |st.pending| > 0 && c.preserve;
    if st.lineLen > 0 && hasRoom && !longPause && !segBreak then Extend
    else if (|st.pending| > 0 && c.maxCount.Some? && (longPause || st.lineCount >= c.maxCount.value)) || segBreak then Cut
    else if st.lineLen > 0 then NewLine
    else Fill
  }

  /** One iteration of the word loop (subtitle_utils.py:54-80). */
  function Step(c: Config, st: State, t: Tok): State {
    var w := t.word;
    var s := Strip(w.text);
    match Decide(c, st, t)
    case Extend =>
      st.(lineLen := st.lineLen + |w.text|, pending := st.pending + [w], last := w.start)
    case Cut =>
      State(|Strip(s)|, 1, st.done + [st.pending], [w.(text := s)], w.start)
    case NewLine =>
      var broken := "\n" + s;
      st.(lineLen := |Strip(broken)|, lineCount := st.lineCount + 1,
          pending := st.pending + [w.(text := broken)], last := w.start)
    case Fill =>
      st.(lineLen := |Strip(s)|, pending := st.pending + [w.(text := s)], last := w.start)
  }

  /** The loop run over a prefix of the stream. */
  function Run(c: Config, st0: State, ts: seq<Tok>): State
    decreases |ts|
  {
    if |ts| == 0 then st0 else Step(c, Run(c, st0, ts[..|ts| - 1]), ts[|ts| - 1])
  }

  /** The cues yielded: the finished ones and then the pending one, if any. */
  function Close(st: State): seq<seq<Word>> {
    if |st.pending| > 0 then st.done + [st.pending] else st.done
  }

  /** Concatenation of cues, folded from the right end. */
  function Flatten(cs: seq<seq<Word>>): seq<Word>
    decreases |cs|
  {
    if |cs| == 0 then [] else Flatten(cs[..|cs| - 1]) + cs[|cs| - 1]
  }

  /** Position in the word stream of each cue's first word. */
  function Offsets(cs: seq<seq<Word>>): (r: seq<int>)
    ensures |r| == |cs|
    decreases |cs|
  {
    if |cs| == 0 then [] else Offsets(cs[..|cs| - 1]) + [|Flatten(cs[..|cs| - 1])|]
  }

  lemma {:induction false} FlattenSnoc(cs: seq<seq<Word>>, c: seq<Word>)
    ensures Flatten(cs + [c]) == Flatten(cs) + c
    ensures Offsets(cs + [c]) == Offsets(cs) + [|Flatten(cs)|]
  {
    assert (cs + [c])[..|cs|] == cs;
  }

  /** Word `i` of cue `k` sits at the cue's offset plus `i` in the
      concatenation. */
  lemma {:induction false} FlattenAt(cs: seq<seq<Word>>, k: int, i: int)
    requires 0 <= k < |cs| && 0 <= i < |cs[k]|
    ensures 0 <= Offsets(cs)[k] && Offsets(cs)[k] + i < |Flatten(cs)|
    ensures Flatten(cs)[Offsets(cs)[k] + i] == cs[k][i]
    decreases |cs|
  {
    var init := cs[..|cs| - 1];
    assert cs == init + [cs[|cs| - 1]];
    FlattenSnoc(init, cs[|cs| - 1]);
    if k < |cs| - 1 {
      assert init[k] == cs[k];
      FlattenAt(init, k, i);
    }
  }

  /** An output word is its input word, either as given, stripped, or
      stripped and prefixed with a line break; its times are unchanged. */
  predicate Rel(w: Word, o: Word) {
    && o.start == w.start && o.end == w.end
    && (o.text == w.text || o.text == Strip(w.text) || o.text == "\n" + Strip(w.text))
  }

  ghost predicate Matches(ws: seq<Word>, out: seq<Word>) {
    |out| == |ws| && forall i :: 0 <= i < |ws| ==> Rel(ws[i], out[i])
  }

  /** A cue is non-empty and its first word has no surrounding whitespace
      (so in particular no line break). */
  predicate Opens(cue: seq<Word>) {
    |cue| > 0 && NoEdgeSpace(cue[0].text)
  }

  ghost predicate PartInv(ts: seq<Tok>, st: State, last0: int) {
    && Matches(Words(ts), Flatten(st.done) + st.pending)
    && (forall k :: 0 <= k < |st.done| ==> Opens(st.done[k]))
    && (|ts| == 0 ==> st == Init(last0))
    && (|ts| > 0 ==> Opens(st.pending) && st.last == ts[|ts| - 1].word.start)
  }

  lemma {:induction false} MatchesSnoc(ws: seq<Word>, out: seq<Word>, w: Word, o: Word)
    requires Matches(ws, out) && Rel(w, o)
    ensures Matches(ws + [w], out + [o])
  {
  }

  function LastWord(ws: seq<Word>): Word
    requires |ws| > 0
  {
    ws[|ws| - 1]
  }

  /** `st'` holds one more word `o` than `st`: at the end of the pending cue,
      or, when `cut`, as the only word of a new pending cue after the old one
      was closed. */
  ghost predicate Appended(st: State, st': State, o: Word, cut: bool) {
    if cut then st'.done == st.done + [st.pending] && st'.pending == [o]
    else st'.done == st.done && st'.pending == st.pending + [o]
  }

  /** What one step does to the cue lists. */
  lemma {:induction false} StepShape(c: Config, st: State, t: Tok)
    ensures var st' := Step(c, st, t);
      && |st'.pending| > 0
      && Appended(st, st', LastWord(st'.pending), Decide(c, st, t) == Cut)
      && Rel(t.word, LastWord(st'.pending))
      && st'.last == t.word.start
      && (Decide(c, st, t) in {Cut, Fill} ==> NoEdgeSpace(LastWord(st'.pending).text))
  {
    StripIdempotent(t.word.text);
  }

  /** The appended word keeps the output matching the input word for word. */
  lemma {:induction false} AppendMatches(ts: seq<Tok>, st: State, t: Tok, st': State, o: Word, cut: bool)
    requires Matches(Words(ts), Flatten(st.done) + st.pending)
    requires Appended(st, st', o, cut) && Rel(t.word, o)
    ensures Matches(Words(ts + [t]), Flatten(st'.done) + st'.pending)
  {
    var out := Flatten(st.done) + st.pending;
    if cut {
      FlattenSnoc(st.done, st.pending);
    }
    assert Flatten(st'.done) + st'.pending == out + [o];
    assert Words(ts + [t]) == Words(ts) + [t.word];
    MatchesSnoc(Words(ts), out, t.word, o);
  }

  lemma {:induction false} PartAppend(ts: seq<Tok>, st: State, t: Tok, st': State, o: Word, cut: bool, last0: int)
    requires PartInv(ts, st, last0)
    requires Appended(st, st', o, cut) && Rel(t.word, o) && st'.last == t.word.start
    requires (cut || |ts| == 0) ==> NoEdgeSpace(o.text)
    requires cut ==> |ts| > 0
    ensures PartInv(ts + [t], st', last0)
  {
    AppendMatches(ts, st, t, st', o, cut);
    if cut {
      assert st'.done == st.done + [st.pending];
    } else if |ts| > 0 {
      assert st'.pending[0] == st.pending[0];
    } else {
      assert st'.pending == [o];
    }
    assert (ts + [t])[|ts|] == t;
  }

  lemma {:induction false} StepKeepsPart(c: Config, ts: seq<Tok>, st: State, t: Tok, last0: int)
    requires PartInv(ts, st, last0)
    ensures PartInv(ts + [t], Step(c, st, t), last0)
  {
    var st' := Step(c, st, t);
    StepShape(c, st, t);
    if |ts| == 0 {
      assert Decide(c, st, t) == Fill;
    }
    PartAppend(ts, st, t, st', LastWord(st'.pending), Decide(c, st, t) == Cut, last0);
  }

  /** The step read on the whole stream: its last word taken after the rest. */
  lemma {:induction false} StepKeepsPartAt(c: Config, ts: seq<Tok>, st: State, last0: int)
    requires |ts| > 0 && PartInv(ts[..|ts| - 1], st, last0)
    ensures PartInv(ts, Step(c, st, ts[|ts| - 1]), last0)
  {
    var prefix, t := ts[..|ts| - 1], ts[|ts| - 1];
    StepKeepsPart(c, prefix, st, t, last0);
    assert prefix + [t] == ts;
  }

  /** After at least one word the pending cue is never empty, so every
      finished cue and the pending one are yielded. */
  lemma {:induction false} RunYieldsPending(c: Config, ts: seq<Tok>, last0: int)
    requires |ts| > 0
    ensures var st := Run(c, Init(last0), ts);
      |st.pending| > 0 && Close(st) == st.done + [st.pending]
  {
    StepShape(c, Run(c, Init(last0), ts[..|ts| - 1]), ts[|ts| - 1]);
  }

  lemma {:induction false} RunKeepsPart(c: Config, ts: seq<Tok>, last0: int)
    ensures PartInv(ts, Run(c, Init(last0), ts), last0)
    decreases |ts|
  {
    if |ts| > 0 {
      RunKeepsPart(c, ts[..|ts| - 1], last0);
      StepKeepsPartAt(c, ts, Run(c, Init(last0), ts[..|ts| - 1]), last0);
    }
  }

  /** The segmentation: the cues `iterate_subtitles` yields, as word lists.
      Every input word appears exactly once, in order, with its times, its
      text as given, stripped, or stripped behind a line break; every cue is
      non-empty and opens with a stripped word. */
  function Cues(o: Options, segs: seq<Segment>): (cues: seq<seq<Word>>)
    requires |segs| > 0 && |segs[0].words| > 0
    ensures forall k :: 0 <= k < |cues| ==> Opens(cues[k])
    ensures Matches(AllWords(segs), Flatten(cues))
  {
    var ts := Stream(segs);
    var st := Run(Decode(o), Init(segs[0].words[0].start), ts);
    RunKeepsPart(Decode(o), ts, segs[0].words[0].start);
    assert Words(ts) == AllWords(segs);
    FlattenSnoc(st.done, st.pending);
    Close(st)
  }
}

=== FILE: strings.dfy ===
/** String helpers shared by the subtitle writer, the translator glue and the
    request handlers: Python's `str.strip`, `str.lower`, `str.capitalize`,
    `rsplit` on one separator, `"".join` and `str.replace("-->", "->")`. */
module Strings {
  import opened Wrappers

  /** Python's `str.isspace` (and the regex class `\s`): the ASCII controls
      9-13 and 28-31, the space, and the Unicode space separators. */
  predicate IsSpace(c: char) {
    var n := c as int;
    || n == 32 || 9 <= n <= 13 || 28 <= n <= 31
    || n == 0x85 || n == 0xA0 || n == 0x1680 || 0x2000 <= n <= 0x200A
    || n == 0x2028 || n == 0x2029 || n == 0x202F || n == 0x205F || n == 0x3000
  }

  predicate AllSpace(s: string) {
    forall i :: 0 <= i < |s| ==> IsSpace(s[i])
  }

  /** Neither end of `s` is whitespace: the shape of every `strip()` result. */
  predicate NoEdgeSpace(s: string) {
    |s| > 0 ==> !IsSpace(s[0]) && !IsSpace(s[|s| - 1])
  }

  /** Python's `s.strip()`: `s` with its leading and trailing whitespace removed. */
  function Strip(s: string): (r: string)
    ensures |r| <= |s|
    ensures NoEdgeSpace(r)
    decreases |s|
  {
    if |s| > 0 && IsSpace(s[0]) then Strip(s[1..])
    else if |s| > 0 && IsSpace(s[|s| - 1]) then Strip(s[..|s| - 1])
    else s
  }

  /** `r` is `s[i..j]`, and `s` holds only whitespace around it. */
  ghost predicate TrimAt(s: string, r: string, i: int, j: int) {
    0 <= i <= j <= |s| && r == s[i..j] && AllSpace(s[..i]) && AllSpace(s[j..])
  }

  /** `Strip(s)` is the middle of `s` between a whitespace prefix and a
      whitespace suffix. */
  lemma {:induction false} StripIsTrim(s: string)
    ensures exists i, j :: TrimAt(s, Strip(s), i, j)
    decreases |s|
  {
    if |s| > 0 && IsSpace(s[0]) {
      StripIsTrim(s[1..]);
      var i, j :| TrimAt(s[1..], Strip(s[1..]), i, j);
      TrimCons(s, i, j);
    } else if |s| > 0 && IsSpace(s[|s| - 1]) {
      StripIsTrim(s[..|s| - 1]);
      var i, j :| TrimAt(s[..|s| - 1], Strip(s[..|s| - 1]), i, j);
      TrimSnoc(s, i, j);
    } else {
      assert TrimAt(s, Strip(s), 0, |s|);
    }
  }

  lemma {:induction false} TrimCons(s: string, i: int, j: int)
    requires |s| > 0 && IsSpace(s[0])
    requires TrimAt(s[1..], Strip(s[1..]), i, j)
    ensures TrimAt(s, Strip(s), i + 1, j + 1)
  {
    assert Strip(s) == Strip(s[1..]);
    TrimWiden(s, Strip(s[1..]), i, j);
  }

  lemma {:induction false} TrimSnoc(s: string, i: int, j: int)
    requires |s| > 0 && !IsSpace(s[0]) && IsSpace(s[|s| - 1])
    requires TrimAt(s[..|s| - 1], Strip(s[..|s| - 1]), i, j)
    ensures TrimAt(s, Strip(s), i, j)
  {
    assert Strip(s) == Strip(s[..|s| - 1]);
    TrimExtend(s, Strip(s[..|s| - 1]), i, j);
  }

  /** A whitespace character in front keeps the trim, one place further on. */
  lemma {:induction false} TrimWiden(s: string, r: string, i: int, j: int)
    requires |s| > 0 && IsSpace(s[0])
    requires TrimAt(s[1..], r, i, j)
    ensures TrimAt(s, r, i + 1, j + 1)
  {
    var t := s[1..];
    SpaceCons(s[0], t[..i]);
    assert s[..i + 1] == [s[0]] + t[..i];
    assert s[i + 1..j + 1] == t[i..j];
    assert s[j + 1..] == t[j..];
  }

  /** A whitespace character at the end keeps the trim. */
  lemma {:induction false} TrimExtend(s: string, r: string, i: int, j: int)
    requires |s| > 0 && IsSpace(s[|s| - 1])
    requires TrimAt(s[..|s| - 1], r, i, j)
    ensures TrimAt(s, r, i, j)
  {
    var t := s[..|s| - 1];
    SpaceSnoc(t[j..], s[|s| - 1]);
    assert s[i..j] == t[i..j];
    assert s[..i] == t[..i];
    assert s[j..] == t[j..] + [s[|s| - 1]];
  }

  lemma {:induction false} SpaceCons(c: char, s: string)
    requires IsSpace(c) && AllSpace(s)
    ensures AllSpace([c] + s)
  {
  }

  lemma {:induction false} SpaceSnoc(s: string, c: char)
    requires IsSpace(c) && AllSpace(s)
    ensures AllSpace(s + [c])
  {
  }

  /** Strings without surrounding whitespace are left alone. */
  lemma {:induction false} StripNoEdge(s: string)
    requires NoEdgeSpace(s)
    ensures Strip(s) == s
  {
  }

  /** `strip` is idempotent. */
  lemma {:induction false} StripIdempotent(s: string)
    ensures Strip(Strip(s)) == Strip(s)
  {
    StripNoEdge(Strip(s));
  }

  /** Stripping a stripped word that was given a line-break prefix gives the
      stripped word back (subtitle_utils.py:77-78). */
  lemma {:induction false} StripAfterLineBreak(s: string)
    ensures Strip("\n" + Strip(s)) == Strip(s)
  {
    var t := "\n" + Strip(s);
    assert t[1..] == Strip(s);
    StripIdempotent(s);
  }

  /** A stripped string never starts with a line break. */
  lemma {:induction false} StrippedHasNoBreak(s: string)
    ensures |Strip(s)| == 0 || Strip(s)[0] != '\n'
  {
  }

  /** `"".join(ss)`, folded from the right end. */
  function Concat(ss: seq<string>): (r: string)
    decreases |ss|
  {
    if |ss| == 0 then "" else Concat(ss[..|ss| - 1]) + ss[|ss| - 1]
  }

  lemma {:induction false} ConcatAppend(a: seq<string>, b: seq<string>)
    ensures Concat(a + b) == Concat(a) + Concat(b)
    decreases |b|
  {
    if |b| == 0 {
      assert a + b == a;
    } else {
      assert (a + b)[..|a + b| - 1] == a + b[..|b| - 1];
      ConcatAppend(a, b[..|b| - 1]);
    }
  }

  lemma {:induction false} ConcatSingle(s: string)
    ensures Concat([s]) == s
  {
    assert [s][..0] == [];
  }

  /** `"".join(ss)` read element by element: `ss[i]` sits right after the join of `ss[..i]`. */
  lemma {:induction false} ConcatSplit(ss: seq<string>, i: nat)
    requires i < |ss|
    ensures Concat(ss) == Concat(ss[..i]) + ss[i] + Concat(ss[i + 1..])
  {
    var head := ss[..i + 1];
    assert ss == head + ss[i + 1..];
    ConcatAppend(head, ss[i + 1..]);
    assert head[..i] == ss[..i];
    assert Concat(head) == Concat(ss[..i]) + ss[i];
  }

  function LowerChar(c: char): char {
    if 'A' <= c <= 'Z' then (c as int + 32) as char else c
  }

  function UpperChar(c: char): char {
    if 'a' <= c <= 'z' then (c as int - 32) as char else c
  }

  /** Python's `str.lower()` on ASCII letters. */
  function Lower(s: string): (r: string)
    ensures |r| == |s|
    ensures forall i :: 0 <= i < |s| ==> r[i] == LowerChar(s[i])
  {
    seq(|s|, i requires 0 <= i < |s| => LowerChar(s[i]))
  }

  /** Python's `str.capitalize()` on ASCII letters: the first character
      upper-cased, every other one lower-cased. */
  function Capitalize(s: string): (r: string)
    ensures |r| == |s|
    ensures |s| > 0 ==> r[0] == UpperChar(s[0])
    ensures forall i :: 0 < i < |s| ==> r[i] == LowerChar(s[i])
  {
    if |s| == 0 then "" else [UpperChar(s[0])] + Lower(s[1..])
  }

  lemma {:induction false} UpperLowerChar(c: char)
    ensures UpperChar(LowerChar(c)) == UpperChar(c)
    ensures LowerChar(UpperChar(c)) == LowerChar(c)
  {
  }

  /** The translator receives the same language code whatever the case the
      caller wrote it in, and two codes reach it equal exactly when they agree
      up to case (transcript.py:108). */
  lemma {:induction false} CapitalizeCaseInsensitive(a: string, b: string)
    ensures Capitalize(a) == Capitalize(b) <==> Lower(a) == Lower(b)
  {
    if Capitalize(a) == Capitalize(b) {
      assert |a| == |b|;
      forall i | 0 <= i < |a|
        ensures Lower(a)[i] == Lower(b)[i]
      {
        if i == 0 {
          UpperLowerChar(a[0]);
          UpperLowerChar(b[0]);
          assert LowerChar(UpperChar(a[0])) == LowerChar(UpperChar(b[0]));
        } else {
          assert Capitalize(a)[i] == Capitalize(b)[i];
        }
      }
    }
    if Lower(a) == Lower(b) {
      assert |a| == |b|;
      forall i | 0 <= i < |a|
        ensures Capitalize(a)[i] == Capitalize(b)[i]
      {
        if i == 0 {
          UpperLowerChar(a[0]);
          UpperLowerChar(b[0]);
          assert UpperChar(LowerChar(a[0])) == UpperChar(LowerChar(b[0])) by {
            assert Lower(a)[0] == Lower(b)[0];
          }
        } else {
          assert Lower(a)[i] == Lower(b)[i];
        }
      }
    }
  }

  /** `c.join(parts)`. */
  function JoinOn(parts: seq<string>, c: char): string
    decreases |parts|
  {
    if |parts| == 0 then ""
    else if |parts| == 1 then parts[0]
    else JoinOn(parts[..|parts| - 1], c) + [c] + parts[|parts| - 1]
  }

  lemma {:induction false} JoinOnSnoc(ss: seq<string>, t: string, c: char)
    requires |ss| > 0
    ensures JoinOn(ss + [t], c) == JoinOn(ss, c) + [c] + t
  {
    assert (ss + [t])[..|ss|] == ss;
  }

  /** Appending to the last string appends to the joined string. */
  lemma {:induction false} JoinOnExtend(ss: seq<string>, t: string, c: char)
    requires |ss| > 0
    ensures JoinOn(ss[..|ss| - 1] + [ss[|ss| - 1] + t], c) == JoinOn(ss, c) + t
  {
    var init := ss[..|ss| - 1];
    var last := ss[|ss| - 1];
    if |ss| == 1 {
      assert init + [last + t] == [last + t];
    } else {
      assert ss == init + [last];
      JoinOnSnoc(init, last, c);
      JoinOnSnoc(init, last + t, c);
    }
  }

  /** Index of the last occurrence of `c` in `s`. */
  function LastIndex(s: string, c: char): (r: Option<nat>)
    ensures r.None? <==> c !in s
    ensures r.Some? ==> r.value < |s| && s[r.value] == c && c !in s[r.value + 1..]
    decreases |s|
  {
    if |s| == 0 then None
    else if s[|s| - 1] == c then Some(|s| - 1)
    else
      assert s[..|s| - 1] + [s[|s| - 1]] == s;
      LastIndex(s[..|s| - 1], c)
  }

  /** `s.rsplit(c, 1)[0]`: everything before the last `c`, or all of `s`. */
  function BeforeLast(s: string, c: char): (r: string)
    ensures c !in s ==> r == s
  {
    match LastIndex(s, c)
    case None => s
    case Some(k) => s[..k]
  }

  /** `s.rsplit(c, 1)[-1]`: everything after the last `c`, or all of `s`. */
  function AfterLast(s: string, c: char): (r: string)
    ensures c !in r
    ensures c !in s ==> r == s
    ensures c in s ==> s == BeforeLast(s, c) + [c] + r
  {
    match LastIndex(s, c)
    case None => s
    case Some(k) =>
      assert s == s[..k] + [c] + s[k + 1..];
      s[k + 1..]
  }

  lemma {:induction false} LastIndexOfSplit(p: string, c: char, q: string)
    requires c !in q
    ensures LastIndex(p + [c] + q, c) == Some(|p|)
    decreases |q|
  {
    var s := p + [c] + q;
    if |q| > 0 {
      assert s[|s| - 1] == q[|q| - 1];
      assert s[..|s| - 1] == p + [c] + q[..|q| - 1];
      LastIndexOfSplit(p, c, q[..|q| - 1]);
    }
  }

  /** The two halves of an `rsplit` are determined by the separator's last
      position: splitting `p + [c] + q` with `c` absent from `q` gives back `p` and `q`. */
  lemma {:induction false} SplitLastOf(p: string, c: char, q: string)
    requires c !in q
    ensures BeforeLast(p + [c] + q, c) == p
    ensures AfterLast(p + [c] + q, c) == q
  {
    var s := p + [c] + q;
    LastIndexOfSplit(p, c, q);
    assert s[..|p|] == p;
    assert s[|p| + 1..] == q;
  }

  /** Appending a separator `c` and text, neither holding `d`, extends
      the part after the last `d`. */
  lemma {:induction false} AfterLastSkip(p: string, c: char, q: string, d: char)
    requires c != d && d !in q
    ensures AfterLast(p + [c] + q, d) == AfterLast(p, d) + [c] + q
  {
    if d in p {
      var h, t := BeforeLast(p, d), AfterLast(p, d);
      calc {
        AfterLast(p + [c] + q, d);
        { assert p + [c] + q == h + [d] + (t + [c] + q); }
        AfterLast(h + [d] + (t + [c] + q), d);
        { SplitLastOf(h, d, t + [c] + q); }
        t + [c] + q;
      }
    } else {
      assert d !in p + [c] + q;
    }
  }

  function ReplaceArrowFrom(s: string): (r: string)
    ensures |r| <= |s|
    decreases |s|
  {
    if |s| >= 3 && s[..3] == "-->" then "->" + ReplaceArrowFrom(s[3..])
    else if |s| == 0 then ""
    else [s[0]] + ReplaceArrowFrom(s[1..])
  }

  predicate ArrowAt(s: string, i: int) {
    0 <= i && i + 3 <= |s| && s[i..i + 3] == "-->"
  }

  /** `s` contains the cue-timing delimiter `-->`. */
  ghost predicate HasArrow(s: string) {
    exists i :: ArrowAt(s, i)
  }

  /** Python's `s.replace("-->", "->")`: one left-to-right pass replacing
      non-overlapping occurrences. */
  function ReplaceArrow(s: string): (r: string)
    ensures |r| <= |s|
    ensures r == s <==> !HasArrow(s)
  {
    ReplaceArrowIdentity(s);
    ReplaceArrowFrom(s)
  }

  lemma {:induction false} ReplaceArrowIdentity(s: string)
    ensures ReplaceArrowFrom(s) == s <==> !HasArrow(s)
    decreases |s|
  {
    if |s| >= 3 && s[..3] == "-->" {
      assert ArrowAt(s, 0);
      assert |ReplaceArrowFrom(s)| < |s|;
    } else if |s| > 0 {
      ReplaceArrowIdentity(s[1..]);
      if HasArrow(s) {
        var i :| ArrowAt(s, i);
        assert i != 0 by { assert s[..3] == s[0..3]; }
        assert s[1..][i - 1..i + 2] == s[i..i + 3];
        assert ArrowAt(s[1..], i - 1);
      }
      if HasArrow(s[1..]) {
        var i :| ArrowAt(s[1..], i);
        assert s[i + 1..i + 4] == s[1..][i..i + 3];
        assert ArrowAt(s, i + 1);
      }
    }
  }

  /** An arrow in the tail of a text is an arrow of the text. */
  lemma {:induction false} ArrowInTail(p: string, i: int)
    requires |p| > 0 && ArrowAt(p[1..], i)
    ensures ArrowAt(p, i + 1)
  {
    assert p[i + 1..i + 4] == p[1..][i..i + 3];
  }

  /** Text without an arrow keeps none in its tail. */
  lemma {:induction false} NoArrowInTail(p: string)
    requires |p| > 0 && !HasArrow(p)
    ensures !HasArrow(p[1..])
  {
    forall i | ArrowAt(p[1..], i)
      ensures ArrowAt(p, i + 1)
    {
      ArrowInTail(p, i);
    }
  }

  /** No arrow starts inside arrow-free text that an arrow follows: the
      window there ends in `-`, not `>`. */
  lemma {:induction false} NoArrowAtFront(p: string, q: string)
    requires |p| > 0 && !HasArrow(p)
    ensures (p + "-->" + q)[..3] != "-->"
  {
    var s := p + "-->" + q;
    if |p| >= 3 {
      assert !ArrowAt(p, 0);
      assert s[..3] == p[..3];
    } else {
      assert s[2] == '-';
    }
  }

  /** The pass replaces the first arrow by `->` and carries on behind it:
      text before it that holds no arrow is copied unchanged, and no arrow
      straddles its left edge. */
  lemma {:induction false} ReplaceArrowFirst(p: string, q: string)
    requires !HasArrow(p)
    ensures ReplaceArrow(p + "-->" + q) == p + "->" + ReplaceArrow(q)
  {
    ArrowFromFirst(p, q);
  }

  lemma {:induction false} ArrowFromFirst(p: string, q: string)
    requires !HasArrow(p)
    ensures ReplaceArrowFrom(p + "-->" + q) == p + "->" + ReplaceArrowFrom(q)
    decreases |p|
  {
    var s := p + "-->" + q;
    if |p| == 0 {
      assert s == "-->" + q;
      assert s[..3] == "-->" && s[3..] == q;
    } else {
      NoArrowAtFront(p, q);
      NoArrowInTail(p);
      calc {
        ReplaceArrowFrom(s);
        [s[0]] + ReplaceArrowFrom(s[1..]);
        { assert s[1..] == p[1..] + "-->" + q; }
        [p[0]] + ReplaceArrowFrom(p[1..] + "-->" + q);
        { ArrowFromFirst(p[1..], q); }
        [p[0]] + (p[1..] + "->" + ReplaceArrowFrom(q));
        { assert [p[0]] + p[1..] == p; }
        p + "->" + ReplaceArrowFrom(q);
      }
    }
  }

  /** The single pass does not remove every arrow: `--->` becomes `-->`. */
  lemma {:induction false} ReplaceArrowLeavesArrow()
    ensures ReplaceArrow("--->") == "-->"
    ensures HasArrow(ReplaceArrow("--->"))
  {
    assert "--->"[2] == '-';
    assert "--->"[..3] != "-->";
    assert "--->"[1..] == "-->";
    assert "-->"[..3] == "-->";
    assert "-->"[3..] == "";
    assert ArrowAt("-->", 0);
  }
}

=== FILE: timing.dfy ===
/** The timed transcript the subtitle writer consumes. Times are whole
    milliseconds; the recogniser's float seconds are left out. */
module Timing {
  import opened Wrappers
  import opened Strings

  /** One recognised word: its text (usually with a leading space) and times. */
  datatype Word = Word(text: string, start: int, end: int)

  /** A recognised segment: its words (empty when the recogniser gave no word
      timings), its own times and its plain text. */
  datatype Segment = Segment(words: seq<Word>, start: int, end: int, text: string)

  /** The writer options `max_line_width`, `max_line_count`, `highlight_words`. */
  datatype Options = Options(maxLineWidth: Option<int>, maxLineCount: Option<int>, highlightWords: bool)

  /** One yielded cue: formatted start, formatted end, cue text. */
  datatype Cue = Cue(start: string, end: string, text: string)

  /** Every word of every segment, in order. */
  function AllWords(segs: seq<Segment>): (r: seq<Word>)
    decreases |segs|
  {
    if |segs| == 0 then [] else segs[0].words + AllWords(segs[1..])
  }

  /** The words' texts, in order. */
  function Texts(ws: seq<Word>): (r: seq<string>)
    ensures |r| == |ws|
    ensures forall i :: 0 <= i < |ws| ==> r[i] == ws[i].text
  {
    seq(|ws|, i requires 0 <= i < |ws| => ws[i].text)
  }

  /** `"".join(word.word for word in ws)`. */
  function CueText(ws: seq<Word>): string {
    Concat(Texts(ws))
  }

  /** Texts of words as the recogniser delivers them carry no line break. */
  predicate NoBreaks(ws: seq<Word>) {
    forall i :: 0 <= i < |ws| ==> '\n' !in ws[i].text
  }
}

=== FILE: transcript.dfy ===
/** The pure parts of `Transcript` (transcript.py): the transcript text, the
    default writer options, the translated file's name and URL, the language
    code handed to the translator, and how `translate_subtitles` gathers the
    per-language outcomes into its two maps. */
module Transcript {
  import opened Wrappers
  import opened Strings
  import opened Timing
  import opened Segmentation
  import opened CueLines
  import opened Render
  import opened Vtt

  /** The segments' texts, in order. */
  function SegmentTexts(segs: seq<Segment>): (r: seq<string>)
    ensures |r| == |segs|
    ensures forall i :: 0 <= i < |segs| ==> r[i] == segs[i].text
  {
    seq(|segs|, i requires 0 <= i < |segs| => segs[i].text)
  }

  /** The loop of transcript.py:47-50: the transcript `"text"` is the
      segments' texts joined in order. */
  method TranscriptText(segs: seq<Segment>) returns (text: string)
    ensures text == Concat(SegmentTexts(segs))
    ensures forall k :: 0 <= k <= |segs| ==> text == Concat(SegmentTexts(segs[..k])) + Concat(SegmentTexts(segs[k..]))
  {
    text := "";
    var i := 0;
    while i < |segs|
      invariant 0 <= i <= |segs|
      invariant text == Concat(SegmentTexts(segs[..i]))
    {
      assert SegmentTexts(segs[..i + 1]) == SegmentTexts(segs[..i]) + [segs[i].text];
      ConcatAppend(SegmentTexts(segs[..i]), [segs[i].text]);
      ConcatSingle(segs[i].text);
      text := text + segs[i].text;
      i := i + 1;
    }
    assert segs[..i] == segs;
    forall k | 0 <= k <= |segs|
      ensures text == Concat(SegmentTexts(segs[..k])) + Concat(SegmentTexts(segs[k..]))
    {
      assert SegmentTexts(segs) == SegmentTexts(segs[..k]) + SegmentTexts(segs[k..]);
      ConcatAppend(SegmentTexts(segs[..k]), SegmentTexts(segs[k..]));
    }
  }

  /** The options `write_subtitles` uses when none are given (transcript.py:83-87). */
  const DefaultOptions: Options := Options(Some(28), Some(2), false)

  /** transcript.py:88: the caller's options, or the defaults. */
  function EffectiveOptions(css: Option<Options>): (o: Options)
    ensures css.Some? ==> o == css.value
    ensures css.None? ==> Decode(o) == Config(28, Some(2), false) && !o.highlightWords
  {
    if css.Some? then css.value else DefaultOptions
  }

  /** `write_subtitles`: the file written for the transcript's segments. */
  function WriteSubtitles(fmt: int -> string, segs: seq<Segment>, css: Option<Options>): (w: Written)
    ensures w.raised <==> |segs| == 0
    ensures !w.raised ==> w.text == Serialize(IterateResult(fmt, segs, EffectiveOptions(css)).value)
  {
    WriteResult(fmt, segs, EffectiveOptions(css))
  }

  /** With the defaults segments are not preserved, every line is at most 28
      characters long or shows one word, and no cue has more than two lines. */
  lemma {:induction false} DefaultCuesFit(segs: seq<Segment>)
    requires |segs| > 0 && |segs[0].words| > 0 && NoBreaks(AllWords(segs))
    ensures !Decode(EffectiveOptions(None)).preserve
    ensures var cues := Cues(EffectiveOptions(None), segs);
      forall k :: 0 <= k < |cues| ==>
        && |Lines(cues[k])| <= 2
        && forall j :: 0 <= j < |Lines(cues[k])| ==> FitsWidth(Lines(cues[k])[j], 28)
  {
    CuesFit(DefaultOptions, segs);
  }

  /** `dst_filename` (transcript.py:132): the source name up to its last
      `.`, or the whole name when it has none, then `_<lang>.vtt`. */
  function DstFilename(file: string, lang: string): (r: string)
    ensures AfterLast(r, '.') == "vtt"
  {
    var r := BeforeLast(file, '.') + "_" + lang + ".vtt";
    SplitLastOf(BeforeLast(file, '.') + "_" + lang, '.', "vtt");
    assert r == BeforeLast(file, '.') + "_" + lang + ['.'] + "vtt";
    r
  }

  /** The stem is the part before the extension, or all of a name without one. */
  lemma {:induction false} DstFilenameStem(stem: string, ext: string, lang: string)
    requires '.' !in ext
    ensures DstFilename(stem + "." + ext, lang) == stem + "_" + lang + ".vtt"
    ensures '.' !in stem ==> DstFilename(stem, lang) == stem + "_" + lang + ".vtt"
  {
    SplitLastOf(stem, '.', ext);
    assert stem + "." + ext == stem + ['.'] + ext;
  }

  /** The URL under which the `/upload_files` mount serves the file `dst`:
      the server address, the mount, and the file name without directories
      (transcript.py:138-141, app.py:112). */
  function PublicUrl(server: string, dst: string): (url: string)
    ensures |url| >= |server| + 14 && url[..|server| + 14] == server + "/upload_files/"
    ensures '/' !in url[|server| + 14..]
    ensures '/' !in dst ==> url[|server| + 14..] == dst
    ensures '/' in dst ==> dst == BeforeLast(dst, '/') + "/" + url[|server| + 14..]
  {
    var base := AfterLast(dst, '/');
    assert (server + "/upload_files/" + base)[|server| + 14..] == base;
    server + "/upload_files/" + base
  }

  /** The URL names the file, without its directories. */
  lemma {:induction false} PublicUrlBase(server: string, dir: string, base: string)
    requires '/' !in base
    ensures PublicUrl(server, dir + "/" + base) == server + "/upload_files/" + base
    ensures PublicUrl(server, base) == server + "/upload_files/" + base
  {
    SplitLastOf(dir, '/', base);
    assert dir + "/" + base == dir + ['/'] + base;
  }

  /** `out_lang.capitalize()` on the codes the API documents. */
  lemma {:induction false} TargetLangExamples()
    ensures Capitalize("de") == "De"
    ensures Capitalize("EN-US") == "En-us"
  {
    assert Capitalize("de") == [UpperChar('d')] + Lower("e");
    assert Capitalize("EN-US") == [UpperChar('E')] + Lower("N-US");
  }

  /** How one language's job ended: it returned the translated file's URL
      and path, or it raised. */
  datatype Outcome = Ok(lang: string, url: string, path: string) | Err(lang: string)

  /** The outcome of a job that returns: `_translate_subtitle` on `file`. */
  function Job(server: string, file: string, lang: string): Outcome {
    Ok(lang, PublicUrl(server, DstFilename(file, lang)), DstFilename(file, lang))
  }

  /** The two maps `translate_subtitles` returns. */
  datatype Maps = Maps(urls: map<string, string>, paths: map<string, string>)

  /** One pass of the loop of transcript.py:169-177: a returned job stores
      its URL and path under its language, a raising one is reported and
      skipped. */
  function Record(m: Maps, o: Outcome): (m': Maps)
    ensures o.Err? ==> m' == m
    ensures o.Ok? ==> m'.urls.Keys == m.urls.Keys + {o.lang} && m'.paths.Keys == m.paths.Keys + {o.lang}
    ensures o.Ok? ==> m'.urls[o.lang] == o.url && m'.paths[o.lang] == o.path
    ensures forall l :: l != o.lang && l in m.urls ==> l in m'.urls && m'.urls[l] == m.urls[l]
    ensures forall l :: l != o.lang && l in m.paths ==> l in m'.paths && m'.paths[l] == m.paths[l]
  {
    match o
    case Err(_) => m
    case Ok(lang, url, path) => Maps(m.urls[lang := url], m.paths[lang := path])
  }

  /** The loop over the outcomes in completion order. */
  function Aggregate(outs: seq<Outcome>): (m: Maps)
    ensures m.urls.Keys == m.paths.Keys
    decreases |outs|
  {
    if |outs| == 0 then Maps(map[], map[])
    else Record(Aggregate(outs[..|outs| - 1]), outs[|outs| - 1])
  }

  lemma {:induction false} AggregateSnoc(outs: seq<Outcome>, o: Outcome)
    ensures Aggregate(outs + [o]) == Record(Aggregate(outs), o)
  {
    assert (outs + [o])[..|outs|] == outs;
  }

  /** The languages whose job returned. */
  function Succeeded(outs: seq<Outcome>): set<string> {
    set o | o in outs && o.Ok? :: o.lang
  }

  lemma {:induction false} SucceededSnoc(outs: seq<Outcome>, o: Outcome)
    ensures Succeeded(outs + [o]) == Succeeded(outs) + (if o.Ok? then {o.lang} else {})
  {
    assert forall x :: x in outs + [o] <==> x in outs || x == o;
  }

  /** Both maps hold exactly the languages whose job returned: a raising job
      leaves no entry unless the same language also returned. */
  lemma {:induction false} AggregateKeys(outs: seq<Outcome>)
    ensures Aggregate(outs).urls.Keys == Aggregate(outs).paths.Keys == Succeeded(outs)
    decreases |outs|
  {
    if |outs| > 0 {
      var init := outs[..|outs| - 1];
      var o := outs[|outs| - 1];
      AggregateKeys(init);
      assert outs == init + [o];
      SucceededSnoc(init, o);
    }
  }

  /** Every entry comes from a job of that language that returned. */
  lemma {:induction false} AggregateFrom(outs: seq<Outcome>)
    ensures forall l :: l in Aggregate(outs).urls ==>
      exists o :: o in outs && o.Ok? && o.lang == l && Aggregate(outs).urls[l] == o.url && Aggregate(outs).paths[l] == o.path
    decreases |outs|
  {
    if |outs| > 0 {
      var init := outs[..|outs| - 1];
      var last := outs[|outs| - 1];
      AggregateFrom(init);
      assert outs == init + [last];
      var m := Aggregate(init);
      forall l | l in Aggregate(outs).urls
        ensures exists o :: o in outs && o.Ok? && o.lang == l && Aggregate(outs).urls[l] == o.url && Aggregate(outs).paths[l] == o.path
      {
        if last.Ok? && l == last.lang {
          assert last in outs;
        } else {
          var o :| o in init && o.Ok? && o.lang == l && m.urls[l] == o.url && m.paths[l] == o.path;
          assert o in outs;
        }
      }
    }
  }

  /** The outcomes that returned, in order. */
  function Oks(outs: seq<Outcome>): (r: seq<Outcome>)
    ensures forall o :: o in r ==> o in outs && o.Ok?
    decreases |outs|
  {
    if |outs| == 0 then []
    else
      var init := outs[..|outs| - 1];
      var o := outs[|outs| - 1];
      Oks(init) + (if o.Ok? then [o] else [])
  }

  /** Failures are isolated: dropping the outcomes that raised changes
      neither map. */
  lemma {:induction false} FailuresDropped(outs: seq<Outcome>)
    ensures Aggregate(outs) == Aggregate(Oks(outs))
    decreases |outs|
  {
    if |outs| > 0 {
      var init := outs[..|outs| - 1];
      var o := outs[|outs| - 1];
      FailuresDropped(init);
      var oks := Oks(init);
      assert Oks(outs) == oks + (if o.Ok? then [o] else []);
      if o.Ok? {
        calc {
          Aggregate(outs);
          Record(Aggregate(init), o);
          Record(Aggregate(oks), o);
          { AggregateSnoc(oks, o); }
          Aggregate(oks + [o]);
        }
      } else {
        assert Oks(outs) == oks;
      }
    }
  }

  /** No language occurs twice. */
  predicate Distinct(outs: seq<Outcome>) {
    forall i, j :: 0 <= i < j < |outs| ==> outs[i].lang != outs[j].lang
  }

  /** With distinct languages an outcome is determined by its language. */
  lemma {:induction false} SameLangSame(outs: seq<Outcome>, x: Outcome, y: Outcome)
    requires Distinct(outs)
    ensures x in outs && y in outs && x.lang == y.lang ==> x == y
  {
    if x in outs && y in outs && x.lang == y.lang {
      var a :| 0 <= a < |outs| && outs[a] == x;
      var b :| 0 <= b < |outs| && outs[b] == y;
    }
  }

  /** Completion order does not matter when the languages are distinct: the
      same outcomes in any order give the same maps. */
  lemma {:induction false} OrderIndependent(outs: seq<Outcome>, outs': seq<Outcome>)
    requires Distinct(outs) && multiset(outs) == multiset(outs')
    ensures Aggregate(outs) == Aggregate(outs')
  {
    var m, m' := Aggregate(outs), Aggregate(outs');
    SameMembers(outs, outs');
    AggregateKeys(outs);
    AggregateKeys(outs');
    assert Succeeded(outs) == Succeeded(outs');
    forall l | l in m.urls
      ensures m.urls[l] == m'.urls[l] && m.paths[l] == m'.paths[l]
    {
      SameEntry(outs, outs', l);
    }
    SameMaps(m, m');
  }

  /** Two orders of the same outcomes hold the same outcomes. */
  lemma {:induction false} SameMembers(outs: seq<Outcome>, outs': seq<Outcome>)
    requires multiset(outs) == multiset(outs')
    ensures forall o :: o in outs <==> o in outs'
  {
    forall o
      ensures o in outs <==> o in outs'
    {
      assert o in outs <==> o in multiset(outs);
      assert o in outs' <==> o in multiset(outs');
    }
  }

  /** With distinct languages, two orders of the same outcomes store the same
      entry for a language both have. */
  lemma {:induction false} SameEntry(outs: seq<Outcome>, outs': seq<Outcome>, l: string)
    requires Distinct(outs) && forall o :: o in outs <==> o in outs'
    requires l in Aggregate(outs).urls && l in Aggregate(outs').urls
    ensures Aggregate(outs).urls[l] == Aggregate(outs').urls[l]
    ensures Aggregate(outs).paths[l] == Aggregate(outs').paths[l]
  {
    var m, m' := Aggregate(outs), Aggregate(outs');
    AggregateFrom(outs);
    AggregateFrom(outs');
    var o :| o in outs && o.Ok? && o.lang == l && m.urls[l] == o.url && m.paths[l] == o.path;
    var o' :| o' in outs' && o'.Ok? && o'.lang == l && m'.urls[l] == o'.url && m'.paths[l] == o'.path;
    SameLangSame(outs, o, o');
  }

  /** When every returned job is `_translate_subtitle` on the same file,
      the entry for each language that returned is that language's
      translated file: its URL and its path. */
  lemma {:induction false} AggregateJobs(server: string, file: string, outs: seq<Outcome>)
    requires forall o :: o in outs && o.Ok? ==> o == Job(server, file, o.lang)
    ensures Aggregate(outs).urls.Keys == Succeeded(outs)
    ensures forall l :: l in Aggregate(outs).urls ==>
      Aggregate(outs).urls[l] == PublicUrl(server, DstFilename(file, l)) && Aggregate(outs).paths[l] == DstFilename(file, l)
  {
    AggregateKeys(outs);
    AggregateFrom(outs);
  }

  /** Two results with the same languages and the same entries are equal. */
  lemma {:induction false} SameMaps(m: Maps, m': Maps)
    requires m.urls.Keys == m'.urls.Keys && m.paths.Keys == m'.paths.Keys
    requires forall l :: l in m.urls ==> m.urls[l] == m'.urls[l]
    requires forall l :: l in m.paths ==> m.paths[l] == m'.paths[l]
    ensures m == m'
  {
    assert m.urls == m'.urls;
    assert m.paths == m'.paths;
  }

  /** So for such jobs only the set of languages that returned matters: any
      completion order, repeated languages included, gives the same maps. */
  lemma {:induction false} JobsOrderIndependent(server: string, file: string, outs: seq<Outcome>, outs': seq<Outcome>)
    requires forall o :: o in outs && o.Ok? ==> o == Job(server, file, o.lang)
    requires forall o :: o in outs' && o.Ok? ==> o == Job(server, file, o.lang)
    requires Succeeded(outs) == Succeeded(outs')
    ensures Aggregate(outs) == Aggregate(outs')
  {
    AggregateJobs(server, file, outs);
    AggregateJobs(server, file, outs');
    SameMaps(Aggregate(outs), Aggregate(outs'));
  }
}

=== FILE: vtt.dfy ===
/** `WriteVTT.write_result` (subtitle_utils.py:124-128): the file is the
    WebVTT signature line and a blank line, then one block per triple: the
    cue timings line with the `align:middle` cue setting, the cue text, and
    a blank line (section 4.1 of the W3C WebVTT specification). */
module Vtt {
  import opened Wrappers
  import opened Strings
  import opened Timing
  import opened Segmentation
  import opened Render

  /** `print("WEBVTT\n")`. */
  const Header: string := "WEBVTT\n\n"

  /** `print(f"{start} --> {end} align:middle\n{text}\n")`. */
  function Block(c: Cue): string {
    c.start + " --> " + c.end + " align:middle\n" + c.text + "\n\n"
  }

  function BlockList(cs: seq<Cue>): (r: seq<string>)
    ensures |r| == |cs|
    ensures forall k :: 0 <= k < |cs| ==> r[k] == Block(cs[k])
  {
    seq(|cs|, k requires 0 <= k < |cs| => Block(cs[k]))
  }

  /** The file contents for the triples `cs`. */
  function Serialize(cs: seq<Cue>): (r: string)
    ensures |r| >= |Header| && r[..|Header|] == Header
  {
    Header + Concat(BlockList(cs))
  }

  /** Where block `k` begins in the file. */
  function BlockStart(cs: seq<Cue>, k: int): int
    requires 0 <= k <= |cs|
  {
    |Header| + |Concat(BlockList(cs[..k]))|
  }

  /** Writing one more triple appends its block to what was written. */
  lemma {:induction false} SerializeAppend(cs: seq<Cue>, c: Cue)
    ensures Serialize(cs + [c]) == Serialize(cs) + Block(c)
  {
    var bs := BlockList(cs + [c]);
    assert bs == BlockList(cs) + [Block(c)];
    ConcatAppend(BlockList(cs), [Block(c)]);
    ConcatSingle(Block(c));
  }

  /** Block `k` appears verbatim in the file, right after the blocks of the
      triples before it. */
  lemma {:induction false} BlockInFile(cs: seq<Cue>, k: int)
    requires 0 <= k < |cs|
    ensures BlockStart(cs, k) + |Block(cs[k])| == BlockStart(cs, k + 1) <= |Serialize(cs)|
    ensures Serialize(cs)[BlockStart(cs, k)..BlockStart(cs, k + 1)] == Block(cs[k])
  {
    var bs := BlockList(cs);
    var a := Header + Concat(BlockList(cs[..k]));
    var b := Block(cs[k]);
    var c := Concat(bs[k + 1..]);
    PrefixBlocks(cs, k);
    calc {
      Serialize(cs);
      Header + Concat(bs);
      { assert bs == bs[..k + 1] + bs[k + 1..]; ConcatAppend(bs[..k + 1], bs[k + 1..]); }
      Header + (Concat(bs[..k + 1]) + c);
      Header + (Concat(BlockList(cs[..k])) + b + c);
      { Reassoc(Header, Concat(BlockList(cs[..k])), b, c); }
      a + b + c;
    }
    SliceMiddle(a, b, c);
  }

  lemma {:induction false} Reassoc(h: string, x: string, b: string, c: string)
    ensures h + (x + b + c) == h + x + b + c
  {
  }

  /** The blocks of the first `k + 1` triples are those of the first `k` and then block `k`. */
  lemma {:induction false} PrefixBlocks(cs: seq<Cue>, k: int)
    requires 0 <= k < |cs|
    ensures Concat(BlockList(cs)[..k + 1]) == Concat(BlockList(cs[..k])) + Block(cs[k])
    ensures BlockList(cs[..k + 1]) == BlockList(cs)[..k + 1]
  {
    var bs := BlockList(cs);
    assert bs[..k + 1][..k] == BlockList(cs[..k]);
    assert BlockList(cs[..k + 1]) == bs[..k + 1];
  }

  lemma {:induction false} SliceMiddle(a: string, b: string, c: string)
    ensures (a + b + c)[|a|..|a| + |b|] == b
  {
  }

  /** A single triple gives the header followed by its block. */
  lemma {:induction false} SerializeOne(c: Cue)
    ensures Serialize([c]) == Header + Block(c)
  {
    assert BlockList([c]) == [Block(c)];
    ConcatSingle(Block(c));
  }

  /** A block in the format of the WebVTT file: the timings line with the
      cue setting, the text line, a blank line. */
  lemma {:induction false} BlockExample()
    ensures Block(Cue("00:01.500", "00:03.250", "Hi there"))
         == "00:01.500 --> 00:03.250 align:middle\nHi there\n\n"
  {
    var timings := "00:01.500 --> 00:03.250 align:middle\n";
    assert "00:01.500" + " --> " == "00:01.500 --> ";
    assert "00:01.500 --> " + "00:03.250" == "00:01.500 --> 00:03.250";
    assert "00:01.500 --> 00:03.250" + " align:middle\n" == timings;
  }

  /** What `write_result` leaves in the file, and whether it ended by raising. */
  datatype Written = Written(text: string, raised: bool)

  /** The header is written before the triples are produced, so on an empty
      segment list the file holds the header and the call raises
      `IndexError`. */
  function WriteResult(fmt: int -> string, segs: seq<Segment>, o: Options): (w: Written)
    ensures w.raised <==> |segs| == 0
    ensures |w.text| >= |Header| && w.text[..|Header|] == Header
    ensures w.raised ==> w.text == Header
    ensures !w.raised ==> w.text == Serialize(IterateResult(fmt, segs, o).value)
  {
    match IterateResult(fmt, segs, o)
    case None => Written(Header, true)
    case Some(cs) => Written(Serialize(cs), false)
  }
}

=== FILE: wrappers.dfy ===
/** The optional value every module uses: an absent argument, a missing
    separator, or a call that raises. */
module Wrappers {
  datatype Option<+T> = None | Some(value: T)
}
